=== FILE: README.md ===
# sonic-reducer in Dafny

A model of sonic-reducer, a small synchronous reactive-state library. The model covers:

- **Cells.** `defineAtom` (a reducer-gated cell), `defineValueAtom` (a cell that
  takes whatever it is given) and `atomify` (a cell whose next state is `fn(value)`).
- **Derived nodes.** `defineFormula` keeps one slot per source and recomputes
  over all of them. `combine` patches one key per source. `sink` is a formula
  whose combining function is `merge`.
- **Wiring.** `link` forwards each atom's broadcasts to the next atom's `update`.
- **The `nah` sentinel.** It stops a commit and a publish, both when it arrives
  as input and when a reducer or combining function returns it.
- **The pure helpers.** `actionSwitch`, `bindActionCreator`, `lazify`,
  `mapObject` and `merge`.

`es6/index.js` is the reference. `index.js`, the copy the library's tests
import, differs in two places. Each difference is modelled as written, next to
the reference version (see "## Findings").

Files:

- `values.dfy` (`Values`): the value domain.
  - `Nah` is a constructor of its own, so no application value can be mistaken
    for it.
  - `merge` is defined over object fields, with the later argument winning.
- `engine.dfy` (`Engine`): the propagation engine.
  - A `Store` holds, for every node, its kind, its cell (state, plus one slot
    per source for a formula) and the ordered list of subscribers on its
    topic.
  - `Update`, `Publish`, `Deliver`, `Handle`, `ReceiveFormula` and
    `ReceiveCombine` are mutually recursive. Together they give the
    depth-first cascade that one `update` sets off, and return the store
    afterwards with the trace of every `publish`, in order.
  - The cascade terminates by descending a height `h` (`Ranked`). Every
    subscription edge leads strictly downhill, so the subscription graph is
    acyclic.
- `wiring.dfy` (`Wiring`): the node-defining functions and `link`, and the
  subscription registry they grow (`Attach`, whose reference definition is
  `Registered`).
  - Every defining function is shown to keep the store well-formed.
  - `FormulaRanked`, `CombinatorRanked` and `LinkRanked` show that each one
    keeps a height.
- `helpers.dfy` (`Helpers`): `actionSwitch`, `bindActionCreator`, `lazify`
  and `mapObject`.
- `properties.dfy` (`Properties`): all-inputs properties relating the engine
  to the nodes and helpers.
- `scenarios.dfy` (`Scenarios`): the library's own test scenarios, stated and
  proved over the model.

The publish/subscribe primitive comes from a library that is not part of this
model. It is modelled by its contract:

- Subscribers of a topic are called synchronously, in registration order.
- Each subscriber's cascade finishes before the next subscriber is called.
- `publish` returns only after every subscriber has been called.

## Model

| member | source | states |
|---|---|---|
| Values.MergeFields | es6/index.js:165-167 | A key is in the result exactly when some argument has it. Its value comes from the last argument that has the key. |
| Values.Merge | es6/index.js:165-167 | `merge` always returns an object. A key is in it exactly when some argument has that key, and it holds the value from the last argument that has it. |
| Values.MergeLaterWins | es6/index.js:103-105 | If a later argument has key `k`, replacing an earlier argument does not change the merged value at `k`. |
| Values.MergePair | es6/index.js:165-167 | `merge(a, b)` holds the fields of `a`, overridden by those of `b`. |
| Values.MergePatch | es6/index.js:93 | `merge(state, {[key]: v})` equals `state` everywhere except at `key`, where it holds `v`. |
| Engine.Update | es6/index.js:16-25 | When the proposal is `nah`, nothing changes and nothing is published. A `nah` input gives a `nah` proposal. Otherwise the atom ends up holding the proposal and the proposal is published first. Every later publication in the cascade comes from a node below the atom. Nodes at or above the atom's height are untouched. |
| Engine.Proposal | es6/index.js:17-19 | A `nah` input is refused before the reducer runs. Otherwise a value atom proposes its input unchanged, and a reducing atom proposes its reducer's result over the state and the input. |
| Engine.UpdatePublishesOnce | es6/index.js:16-25 | An update publishes on the atom's topic exactly once if it is accepted, and never if it is declined. |
| Engine.ReceiveFormula | es6/index.js:39-48 | A `nah` input changes nothing. Otherwise slot `i` becomes `v` and the other slots are kept. The formula is recomputed over all slots. The result is committed and published only when it is not `nah`. When it is `nah`, only the slot changes and nothing is published. |
| Engine.ReceiveCombine | es6/index.js:91-95 | A `nah` input changes nothing. Otherwise the combinator's new object equals the old one except at `key`, which holds `v`. That object is always published, first. |
| Engine.Publish | es6/index.js:21 | The publication itself comes first in the trace. Everything the subscribers publish afterwards is from lower nodes. Nodes at or above the topic's height keep their cells. |
| Engine.Deliver | es6/index.js:21 | Delivering to the subscribers of a topic, in order, changes only nodes below the topic and publishes only from them. |
| Engine.Handle | es6/index.js:152 | Delivering to a single subscriber changes only nodes below the topic and publishes only from them. |
| Wiring.Registered | es6/index.js:39 | The handlers that a batch of `subscribe` calls puts on one topic are exactly those whose source is that topic. |
| Wiring.Attach | es6/index.js:38-50 | After a batch of `subscribe` calls, each topic's list is its old list followed by the handlers registered on it, in call order. |
| Wiring.AttachWired | es6/index.js:38-50 | Subscribing handlers that fit the node kinds keeps the registry well-formed. |
| Wiring.AttachRanked | es6/index.js:38-50 | Subscribing handlers that each lead downhill keeps a height valid. |
| Wiring.DefineAtom | es6/index.js:9-28 | `defineAtom` adds a new reducing node that holds `init` and uses the given reducer. Nothing is subscribed to it, and the other nodes are unchanged. |
| Wiring.DefineValueAtom | es6/index.js:56-72 | `defineValueAtom` adds a new replacing node holding `init`. The other nodes are unchanged. |
| Wiring.Atomify | es6/index.js:76-80 | The new atom starts out `undefined` whatever `init` is. Its reducer returns `fn(value)` and ignores the state. |
| Wiring.DefineFormula | es6/index.js:30-54 | The slots start as the sources' current states. The state starts as `formula` over all slots, `nah` included. Each source `i` gets the handler for slot `i`, appended to its list. |
| Wiring.Sink | es6/index.js:103-105 | A sink is wired exactly like `defineFormula(merge, …)`: a new formula node whose function is `merge`, with slot `i` holding source `i`'s state and its handler appended to source `i`'s list. Its state starts as the merge of those slots. Nothing listens to the sink yet, and the other nodes' kinds and cells are unchanged. |
| Wiring.Snapshot | es6/index.js:89-98 | The combinator's initial object has exactly the map's keys. Each key holds its atom's current state. |
| Wiring.AddCombinator | es6/index.js:83-98 | A new combining node is added after the existing ones and holds the initial object. Nothing listens to it yet. Each source's list is its old list followed by the handlers registered on it, and every earlier cell is unchanged. |
| Wiring.Combine | es6/index.js:82-101 | The initial object holds each atom's state under its key. The atom under key `k` gets a handler that patches `k`, appended to its list. Nothing listens to the new combinator yet. |
| Wiring.CombineShared | index.js:82-101 | It has the same initial object as `Combine`, but every atom's handler patches the last key enumerated. Nothing listens to the new combinator yet. |
| Wiring.Link | es6/index.js:150-155 | An empty chain raises an error. Otherwise each atom's topic gets the next atom's `update`, the result is the last atom, and no cell changes. A single atom is returned with nothing registered. |
| Wiring.Observe | test/test.js:21 | An outside `subscribe` appends a listener to one topic and changes nothing else. |
| Wiring.FormulaRanked | es6/index.js:38-50 | A new formula subscribes only to nodes that already exist, so it can sit below all of them and a valid height stays valid. |
| Wiring.CombinatorRanked | es6/index.js:89-98 | A new combinator likewise keeps a valid height. |
| Wiring.LinkRanked | es6/index.js:150-155 | A chain whose heights fall along it keeps a valid height. |
| Helpers.ActionSwitch | es6/index.js:123-129 | The result is the table's reducer for the action's `type`, applied to the state and the action. It is `nah` when there is no such entry. |
| Helpers.Switch | es6/index.js:125-128 | The returned reducer applies the table's entry for the action's string `type` to the state and the action. It returns `nah` for an action with no such entry. |
| Helpers.BindActionCreator | es6/index.js:131-141 | Given a creator, every call dispatches what the creator returns. Without a creator, binding one later gives calls that dispatch the same way. |
| Helpers.CurriedBindsAlike | es6/index.js:136-140 | Binding through the curried form gives the same calls as binding at once. |
| Helpers.Lazified | es6/index.js:143-148 | The result is `nah` exactly when `fn` returns the state it was given, or `nah`. Otherwise it is `fn`'s result, which differs from the state. |
| Helpers.Lazify | es6/index.js:144-147 | The returned reducer gives `nah` exactly when `fn` returns the state it was given, or `nah`. Otherwise it gives `fn`'s result. |
| Helpers.MapObject | es6/index.js:157-163 | The result has the same keys as `obj`, and each key maps to `func(obj[key], key)`. |
| Helpers.MapObjectAsWritten | index.js:157-163 | The result has the same keys, but each key maps to `func(undefined, key)`, whatever `obj` holds. |
| Properties.UpdateNahIsNoOp | es6/index.js:17 | `update(nah)` leaves the whole store as it was and publishes nothing. |
| Properties.ValueAtomRepublishes | es6/index.js:63-69 | A value atom takes and publishes every value other than `nah`, including the state it already holds. It publishes exactly once on its own topic. |
| Properties.AtomifyForgetsState | es6/index.js:76-80 | An atom from `atomify(fn)` ends holding `fn(v)`, whatever it held before. |
| Properties.SwitchIgnoresUnknownAction | es6/index.js:125-127 | An atom reducing with `actionSwitch(table)` ignores an action the table has no entry for: the store is unchanged and nothing is published. |
| Properties.LazyAtomPublishesChangesOnly | es6/index.js:143-148 | An atom reducing with `lazify(fn)` changes nothing and publishes nothing when `fn` returns the current state. Whatever it does publish differs from its old state. |
| Properties.PublishRunsSubscribersInOrder | es6/index.js:21 | A topic with two subscribers runs the first handler on the store, then the second on what the first left. The trace is the publication, then the first handler's publications, then the second's. |
| Properties.SinkKeepsLaterKeys | es6/index.js:103-105 | When an earlier source of a sink delivers any value, every key a later source has keeps the value the later sources give it. |
| Properties.SharedKeyMisdirects | index.js:89-96 | With two or more keys, the handler `index.js` registers for the first atom differs from the one `combine` intends. |
| Properties.SingleKeyCombineAgrees | index.js:89-96 | With a single key, both versions register the same handler. |
| Scenarios.UpdateAccepts | es6/index.js:17-22 | An accepted update commits the proposal and then publishes it. |
| Scenarios.PublishToLink | es6/index.js:152 | A topic whose only subscriber is a link forwards the value to the next atom's `update`. |
| Scenarios.PublishToFormula | es6/index.js:39-48 | A topic whose only subscriber is a formula slot hands the value to that formula's handler. |
| Scenarios.PublishToCombine | es6/index.js:91-95 | A topic whose only subscriber is a combine key hands the value to that combinator's handler. |
| Scenarios.ChainAtoms | test/test.js:273-279 | The test chain starts as A = 0, B = undefined and C = 1. B doubles its input and C adds its input to its state. |
| Scenarios.LinkChain | test/test.js:276 | `link(A, B, C)` subscribes B's `update` on A and C's `update` on B, and leaves the cells as they were. |
| Scenarios.UpdateIntoLastLink | es6/index.js:150-155 | An update of an atom linked only to a last atom commits both proposals and publishes both, in order. |
| Scenarios.LinkChainFromHead | test/test.js:280-283 | `A.update(1)` gives A = 1, B = 2 and C = 3, publishing in that order. |
| Scenarios.LinkChainFromMiddle | test/test.js:284-287 | After that, `B.update(2)` gives B = 4 and C = 7 and leaves A at 1. |
| Scenarios.FooBarSnapshot | test/test.js:136-146 | The initial object of `combine({foo, bar})` is `{foo: 0, bar: 1}`. |
| Scenarios.CombineBuildsOwnKeys | es6/index.js:89-98 | `combine({foo, bar})` registers a `foo` patch on the foo atom and a `bar` patch on the bar atom. |
| Scenarios.CombineSharedBuildsLastKey | index.js:89-98 | In `index.js`, `combine({foo, bar})` registers a `bar` patch on both atoms. |
| Scenarios.ValueAtomIntoCombinator | test/test.js:162-173 | Updating a value atom that feeds only a combinator publishes the atom's value, then the patched object. |
| Scenarios.CombineUpdatesOwnKey | test/test.js:148-160 | `fooAtom.update(2)` gives `{foo: 2, bar: 1}` and publishes it after `2`. |
| Scenarios.CombineSharedKeyMisroutes | test/test.js:148-160 | In `index.js` the same update gives `{foo: 0, bar: 2}`. |
| Scenarios.FormulaOverTwo | es6/index.js:38-52 | A formula over two atoms starts with the atoms' states as slots and `formula` of them as state. Slot handlers 0 and 1 sit on the two atoms. |
| Scenarios.ValueAtomIntoFormula | es6/index.js:39-48 | A value atom feeding only a formula, with a non-`nah` recomputation, leaves the formula holding the result over the updated slots. Both values are published. |
| Scenarios.ValueAtomIntoDecliningFormula | es6/index.js:40-47 | When the recomputation is `nah`, the formula keeps its state but takes the new slot. Only the atom's value is published. |
| Scenarios.FlaggedFormulaBuilt | test/test.js:67-72 | Two `true` value atoms, a formula `(a && b) || nah` and an outside listener make the literal store `FlaggedFormula`. |
| Scenarios.FormulaIgnoresNah | test/test.js:66-77 | After `atomA.update(false)`, the formula still holds `true` and its listener hears nothing. |
| Scenarios.SunkBuilt | test/test.js:189-196 | `sink({foo: 0, bar: 1}, {bar: 2})` holds `{foo: 0, bar: 2}`. |
| Scenarios.SinkShadowedUpdate | test/test.js:203-204 | Updating the first atom leaves `bar` at 2. |
| Scenarios.SinkLaterUpdate | test/test.js:205-206 | Updating the second atom to `{bar: 3}` gives `bar` = 3. |
| Scenarios.MapObjectDescribes | test/test.js:293-297 | `mapObject` gives `{foo: "foo 1", bar: "bar 2"}`. The `index.js` version gives `{foo: "foo undefined", bar: "bar undefined"}`. |
| Scenarios.DiamondBuilt | es6/index.js:38-52 | `defineFormula(sum, A, B)` followed by `link(A, B)` leaves A heard first by the formula's slot 0 and then by B's `update`, and B heard by slot 1. |
| Scenarios.DiamondGlitch | es6/index.js:150-155 | On that diamond, `A.update(z)` ends with A = B = z and the formula at z + z. The formula publishes twice, and the first time it publishes z + y, over B's old value y. |

## Left out

- `atomConnector`, `atomPropConnector` and `call` (es6/index.js:109-119): these are adapters over the external library's UI connectors, which are not part of this model.
- The publish/subscribe library's internals: only its ordering contract is modelled.
- Cyclic subscription graphs and updates made re-entrantly during a delivery: every cascade here requires a height under which every edge leads downhill, so no cycle is modelled. In the source, a cycle that no reducer or formula declines recurses without bound. A cycle that a `nah` gate breaks does terminate in the source. For example, `link(A, A)` on a lazified atom stops on the second `A.update`, because the state is then unchanged (es6/index.js:146, 19). Such a cycle is left out too.
- Engine.Update: only the sentinel value itself declines. In the source, the loose `!= nah` comparisons (es6/index.js:19, 40, 43, 92) also treat a primitive that converts to `"[object Object]"` as the sentinel.
- Reference identity and allocation: values are immutable. "A new object each time" (test/test.js:175-184) holds because nothing is ever mutated, not because of a fresh reference.
- Helpers.Lazified: compares with structural equality where the source uses `===`. Two distinct objects with equal contents count as unchanged here but as changed in the source.
- Helpers.Lazify: rests on the same structural comparison as `Lazified`. Given a fresh copy of the state, the reducer returned here gives `nah`, but the source's returns the copy (es6/index.js:146).
- Properties.LazyAtomPublishesChangesOnly: "unchanged" means structurally equal. In the source, a reducer that returns a fresh copy equal to the state still gets the copy committed and published (es6/index.js:146, 19-21). Here nothing is published.
- Exceptions raised by reducers or formulas in the middle of a cascade. The only error modelled is `link` on an empty chain, which gives `EmptyChain`.
- `for…in` enumeration: a `combine` map is given as its entries in enumeration order, and inherited keys are not modelled. `mapObject` goes through the keys in an arbitrary order, so the result does not depend on that order.
- JavaScript numbers: `Int` is an unbounded integer, with no floating point, `NaN` or string coercion. The test's `x * 2` and `state + x` are modelled on integers, and `${key} ${value}` only for the values the test uses.
- `Object.assign` on non-objects: `Fields` of a string, number, boolean, `undefined` or the sentinel is empty. Strings' indexed characters are not copied.
- Helpers.ActionSwitch: the table lookup requires a string `type`. JavaScript's conversion of other `type` values to property names, and `caseFn` values that are not functions, are not modelled. The lookup sees the table's own keys only. In the source, `actionMap[action.type]` also finds members inherited from `Object.prototype`. So a `type` of `"constructor"` dispatches to `Object` there (es6/index.js:126), while the model gives `nah`.
- Helpers.Switch: the same two gaps as `ActionSwitch`. It dispatches on a string `type` only, and it looks up the table's own keys only, not inherited members such as `constructor`.
- Properties.SwitchIgnoresUnknownAction: "no entry" means no own key of the table. For a `type` naming an inherited member such as `constructor`, the source's `caseFn` is truthy and returns a value that is not `nah`. The source then commits and publishes it (es6/index.js:126-127, 19-21), while the model leaves the store unchanged.
- Helpers.MapObjectAsWritten: property reads see own keys only. For an input key that names an inherited member such as `toString`, index.js:160 passes that member to `func`, not `undefined`. The contract's `func(undefined, key)` holds only for keys that name no member of `Object.prototype`.
- Helpers.BindActionCreator: a creator's arguments are one sequence, and "is `fn` given" is `Some`/`None`. Falsy non-function values and side effects of `dispatch` are not modelled.
- The ignored parameter of `boundFormula` (es6/index.js:34) and the value `update` returns: `update` returns the atom's state afterwards, which is `Read(Update(..).store, id)`.
- Wiring.DefineFormula: when the initial computation is `nah`, the source stores that sentinel as the formula's state (es6/index.js:52), and so does the model, rather than leaving the state unset.

## Findings

| source | as written | input that shows it | evidently intended | confidence | as-written member | corrected member |
|---|---|---|---|---|---|---|
| index.js:89-96 | `for (var key in atomMap)`: every handler closes over one function-scoped `key`. By the time any handler runs, `key` holds the last key enumerated, so every source patches that key. | `combine({foo: fooAtom(0), bar: barAtom(1)})` then `fooAtom.update(2)` gives `{foo: 0, bar: 2}`, where test/test.js:157-158 expects `foo == 2`. | Each source patches its own key, as es6/index.js:89 does with `let key`: `{foo: 2, bar: 1}`. | not executed | Wiring.CombineShared, Scenarios.CombineSharedKeyMisroutes, Properties.SharedKeyMisdirects | Wiring.Combine, Scenarios.CombineUpdatesOwnKey |
| index.js:160 | `newObj[key] = func(newObj[key], key)` reads the object under construction, which does not have `key` yet. | `mapObject((v, k) => k + " " + v, {foo: 1, bar: 2})` gives `{foo: "foo undefined", bar: "bar undefined"}`, where test/test.js:296-297 expects `"foo 1"` and `"bar 2"`. | `func(obj[key], key)`, as es6/index.js:160 has it. | not executed | Helpers.MapObjectAsWritten, Scenarios.MapObjectDescribes | Helpers.MapObject, Scenarios.MapObjectDescribes |

=== FILE: engine.dfy ===
/** The synchronous propagation engine: cells, the subscription registry, and
    the depth-first cascade an accepted `update` sets off. A store holds every
    node (atom, value atom, formula, combinator) by id; each node's id is also
    its broadcast topic. */
module Engine {
  import opened Values

  type NodeId = nat

  /** What a node is; fixed when the node is defined. */
  datatype Kind =
    | Reducing(reducer: Reducer)                        // defineAtom, atomify
    | Replacing                                         // defineValueAtom
    | Deriving(formula: seq<Value> -> Value, arity: nat) // defineFormula, sink
    | Combining                                         // combine
  {
    /** Nodes that have an `update` operation. */
    predicate Updatable() {
      Reducing? || Replacing?
    }
  }

  /** A handler registered on a topic. The broadcast primitive delivers to
      these in registration order. */
  datatype Subscriber =
    | FormulaSlot(formula: NodeId, index: nat)      // formula handler for source `index`
    | CombineKey(combinator: NodeId, key: string)   // combine handler patching `key`
    | LinkUpdate(target: NodeId)                    // `target.update`, wired by link
    | Observer(tag: nat)                            // any outside listener

  /** The node a delivery to `sub` hands the value to. */
  function Target(sub: Subscriber): NodeId
    requires !sub.Observer?
  {
    match sub
    case FormulaSlot(f, _) => f
    case CombineKey(c, _) => c
    case LinkUpdate(b) => b
  }

  /** The mutable part of a node: its state and, for a formula, the last value
      seen from each source. */
  datatype Cell = Cell(state: Value, slots: seq<Value>)

  datatype Store = Store(kinds: seq<Kind>, cells: seq<Cell>, subs: seq<seq<Subscriber>>)

  /** One `publish(topic, value)`. */
  datatype Publication = Publication(topic: NodeId, value: Value)

  /** The effect of a call: the store afterwards and the publications it made,
      in the order they were made. */
  datatype Step = Step(store: Store, trace: seq<Publication>)

  /** A subscriber that can only be delivered to in a store of these kinds. */
  predicate Fitting(kinds: seq<Kind>, sub: Subscriber) {
    match sub
    case FormulaSlot(f, i) => f < |kinds| && kinds[f].Deriving? && i < kinds[f].arity
    case CombineKey(c, _) => c < |kinds| && kinds[c].Combining?
    case LinkUpdate(b) => b < |kinds| && kinds[b].Updatable()
    case Observer(_) => true
  }

  /** The registry: one subscriber list per node, each subscriber fitting. */
  predicate Wired(kinds: seq<Kind>, subs: seq<seq<Subscriber>>) {
    && |subs| == |kinds|
    && forall t, j :: 0 <= t < |subs| && 0 <= j < |subs[t]| ==> Fitting(kinds, subs[t][j])
  }

  /** One cell per node, and a formula keeps one slot per source. */
  predicate Fits(kinds: seq<Kind>, cells: seq<Cell>) {
    && |cells| == |kinds|
    && forall n :: 0 <= n < |cells| && kinds[n].Deriving? ==> |cells[n].slots| == kinds[n].arity
  }

  predicate WellFormed(s: Store) {
    Wired(s.kinds, s.subs) && Fits(s.kinds, s.cells)
  }

  /** `h` is a height for the subscription graph: every delivery goes to a node
      strictly lower than the topic. Such a height exists exactly when the graph
      is acyclic; the cascade terminates by descending it. */
  ghost predicate Ranked(subs: seq<seq<Subscriber>>, h: seq<nat>) {
    && |h| == |subs|
    && forall t, j :: 0 <= t < |subs| && 0 <= j < |subs[t]| && !subs[t][j].Observer? ==>
         Target(subs[t][j]) < |h| && h[Target(subs[t][j])] < h[t]
  }

  /** A cascade changes cell contents only: kinds and subscriptions stay, and
      every formula keeps its slot count. */
  ghost predicate Evolves(s: Store, s': Store) {
    s'.kinds == s.kinds && s'.subs == s.subs && Fits(s.kinds, s'.cells)
  }

  /** Every node at height `bound` or above is as it was. */
  ghost predicate SettledFrom(s: Store, s': Store, h: seq<nat>, bound: nat)
    requires |s.cells| == |s'.cells| == |h|
  {
    forall n :: 0 <= n < |s.cells| && h[n] >= bound ==> s'.cells[n] == s.cells[n]
  }

  /** Every publication is on a topic strictly below `bound` and carries a
      value other than the sentinel. */
  ghost predicate Beneath(trace: seq<Publication>, h: seq<nat>, bound: nat) {
    forall j :: 0 <= j < |trace| ==>
      trace[j].topic < |h| && h[trace[j].topic] < bound && !trace[j].value.Nah?
  }

  function Read(s: Store, n: NodeId): Value
    requires n < |s.cells|
  {
    s.cells[n].state
  }

  /** The store with node `n`'s state set to `v`. */
  function Commit(s: Store, n: NodeId, v: Value): (r: Store)
    requires n < |s.cells|
    ensures WellFormed(s) ==> WellFormed(r)
  {
    s.(cells := s.cells[n := s.cells[n].(state := v)])
  }

  /** The state an atom's `update(input)` would commit, or `Nah` when it
      declines: a sentinel input is refused before the reducer runs, a value
      atom takes the input as it is, a reducing atom asks its reducer. */
  function Proposal(k: Kind, state: Value, input: Value): (r: Value)
    requires k.Updatable()
    ensures input.Nah? ==> r.Nah?
    ensures !input.Nah? && k.Replacing? ==> r == input
    ensures !input.Nah? && k.Reducing? ==> r == k.reducer(state, input)
  {
    if input.Nah? then Nah
    else match k
      case Reducing(reducer) => reducer(state, input)
      case Replacing => input
  }

  /** `atom.update(input)`. When the proposal is the sentinel nothing happens.
      Otherwise the atom commits it and publishes it exactly once, first, and
      everything published afterwards in the cascade is from a node strictly
      below the atom. The atom ends holding the proposal, which is what
      `update` returns. */
  function Update(s: Store, h: seq<nat>, id: NodeId, input: Value): (r: Step)
    requires WellFormed(s) && Ranked(s.subs, h)
    requires id < |s.cells| && s.kinds[id].Updatable()
    ensures Evolves(s, r.store)
    ensures forall n :: 0 <= n < |s.cells| && n != id && h[n] >= h[id] ==> r.store.cells[n] == s.cells[n]
    ensures Beneath(r.trace, h, h[id] + 1)
    ensures Proposal(s.kinds[id], Read(s, id), input).Nah? ==> r == Step(s, [])
    ensures !Proposal(s.kinds[id], Read(s, id), input).Nah? ==>
              && Read(r.store, id) == Proposal(s.kinds[id], Read(s, id), input)
              && |r.trace| > 0
              && r.trace[0] == Publication(id, Proposal(s.kinds[id], Read(s, id), input))
              && Beneath(r.trace[1..], h, h[id])
    decreases h[id], 3, 0
  {
    var p := Proposal(s.kinds[id], Read(s, id), input);
    if p.Nah? then Step(s, [])
    else Publish(Commit(s, id, p), h, id, p)
  }

  /** A formula's handler for source `i` receiving `v`: the slot takes `v`
      even when the recomputation then declines; the formula commits and
      publishes only a result other than the sentinel. */
  function ReceiveFormula(s: Store, h: seq<nat>, f: NodeId, i: nat, v: Value): (r: Step)
    requires WellFormed(s) && Ranked(s.subs, h)
    requires f < |s.cells| && s.kinds[f].Deriving? && i < s.kinds[f].arity
    ensures Evolves(s, r.store)
    ensures forall n :: 0 <= n < |s.cells| && n != f && h[n] >= h[f] ==> r.store.cells[n] == s.cells[n]
    ensures Beneath(r.trace, h, h[f] + 1)
    ensures v.Nah? ==> r == Step(s, [])
    ensures !v.Nah? ==>
              && r.store.cells[f].slots == s.cells[f].slots[i := v]
              && var p := s.kinds[f].formula(s.cells[f].slots[i := v]);
              && (p.Nah? ==> r == Step(s.(cells := s.cells[f := s.cells[f].(slots := s.cells[f].slots[i := v])]), []))
              && (!p.Nah? ==>
                    && Read(r.store, f) == p
                    && |r.trace| > 0 && r.trace[0] == Publication(f, p)
                    && Beneath(r.trace[1..], h, h[f]))
    decreases h[f], 3, 0
  {
    if v.Nah? then Step(s, [])
    else
      var slots := s.cells[f].slots[i := v];
      var p := s.kinds[f].formula(slots);
      var s' := s.(cells := s.cells[f := s.cells[f].(slots := slots)]);
      if p.Nah? then Step(s', [])
      else Publish(Commit(s', f, p), h, f, p)
  }

  /** A combinator's handler for `key` receiving `v`: the new mapping equals
      the old one except that `key` holds `v`, and it is always published. */
  function ReceiveCombine(s: Store, h: seq<nat>, c: NodeId, key: string, v: Value): (r: Step)
    requires WellFormed(s) && Ranked(s.subs, h)
    requires c < |s.cells| && s.kinds[c].Combining?
    ensures Evolves(s, r.store)
    ensures forall n :: 0 <= n < |s.cells| && n != c && h[n] >= h[c] ==> r.store.cells[n] == s.cells[n]
    ensures Beneath(r.trace, h, h[c] + 1)
    ensures v.Nah? ==> r == Step(s, [])
    ensures !v.Nah? ==>
              && Read(r.store, c) == Obj(Fields(Read(s, c))[key := v])
              && |r.trace| > 0 && r.trace[0] == Publication(c, Obj(Fields(Read(s, c))[key := v]))
              && Beneath(r.trace[1..], h, h[c])
    decreases h[c], 3, 0
  {
    if v.Nah? then Step(s, [])
    else
      var next := Merge([Read(s, c), Obj(map[key := v])]);
      MergePatch(Read(s, c), key, v);
      Publish(Commit(s, c, next), h, c, next)
  }

  /** `publish(t, v)`: the publication itself, then every subscriber of `t`
      in registration order, each running its cascade to completion before
      the next one starts. */
  function Publish(s: Store, h: seq<nat>, t: NodeId, v: Value): (r: Step)
    requires WellFormed(s) && Ranked(s.subs, h)
    requires t < |s.cells| && !v.Nah?
    ensures Evolves(s, r.store)
    ensures SettledFrom(s, r.store, h, h[t])
    ensures |r.trace| > 0 && r.trace[0] == Publication(t, v)
    ensures Beneath(r.trace[1..], h, h[t])
    decreases h[t], 2, 0
  {
    var d := Deliver(s, h, t, v, 0);
    assert ([Publication(t, v)] + d.trace)[1..] == d.trace;
    Step(d.store, [Publication(t, v)] + d.trace)
  }

  /** Delivery of `v` to the subscribers of `t` from position `k` on. */
  function Deliver(s: Store, h: seq<nat>, t: NodeId, v: Value, k: nat): (r: Step)
    requires WellFormed(s) && Ranked(s.subs, h)
    requires t < |s.cells| && k <= |s.subs[t]|
    ensures Evolves(s, r.store)
    ensures SettledFrom(s, r.store, h, h[t])
    ensures Beneath(r.trace, h, h[t])
    decreases h[t], 1, |s.subs[t]| - k
  {
    if k == |s.subs[t]| then Step(s, [])
    else
      var a := Handle(s, h, t, k, v);
      var b := Deliver(a.store, h, t, v, k + 1);
      Step(b.store, a.trace + b.trace)
  }

  /** The delivery of `v` to the `j`-th subscriber of `t`. */
  function Handle(s: Store, h: seq<nat>, t: NodeId, j: nat, v: Value): (r: Step)
    requires WellFormed(s) && Ranked(s.subs, h)
    requires t < |s.cells| && j < |s.subs[t]|
    ensures Evolves(s, r.store)
    ensures SettledFrom(s, r.store, h, h[t])
    ensures Beneath(r.trace, h, h[t])
    decreases h[t], 0, 0
  {
    match s.subs[t][j]
    case FormulaSlot(f, i) => ReceiveFormula(s, h, f, i, v)
    case CombineKey(c, key) => ReceiveCombine(s, h, c, key, v)
    case LinkUpdate(b) => Update(s, h, b, v)
    case Observer(_) => Step(s, [])
  }

  /** How many publications of a trace are on topic `t`. */
  function Count(trace: seq<Publication>, t: NodeId): nat {
    if |trace| == 0 then 0
    else (if trace[0].topic == t then 1 else 0) + Count(trace[1..], t)
  }

  lemma {:induction false} CountBeneath(trace: seq<Publication>, h: seq<nat>, t: NodeId)
    requires t < |h| && Beneath(trace, h, h[t])
    ensures Count(trace, t) == 0
    decreases |trace|
  {
    if |trace| > 0 {
      CountBeneath(trace[1..], h, t);
    }
  }

  /** An accepted update publishes on the atom's own topic exactly once; a
      declined one publishes nothing at all. */
  lemma UpdatePublishesOnce(s: Store, h: seq<nat>, id: NodeId, input: Value)
    requires WellFormed(s) && Ranked(s.subs, h)
    requires id < |s.cells| && s.kinds[id].Updatable()
    ensures var r := Update(s, h, id, input);
            Count(r.trace, id) == if Proposal(s.kinds[id], Read(s, id), input).Nah? then 0 else 1
  {
    var r := Update(s, h, id, input);
    if !Proposal(s.kinds[id], Read(s, id), input).Nah? {
      CountBeneath(r.trace[1..], h, id);
    }
  }
}

=== FILE: helpers.dfy ===
/** The library's utility combinators: `actionSwitch`, `bindActionCreator`,
    `lazify` and `mapObject` (as published in es6/index.js, and as written
    in index.js). */
module Helpers {
  import opened Values

  // ---------------------------------------------------------------------
  // actionSwitch

  /** The action has a string `type` naming an entry of the table. */
  predicate Dispatches(table: map<string, Reducer>, action: Value) {
    && action.Obj?
    && "type" in action.fields
    && action.fields["type"].Str?
    && action.fields["type"].s in table
  }

  /** `actionSwitch(table)(state, action)`: the table's reducer for the
      action's type, applied to both arguments; the sentinel when the table
      has no entry for it. */
  function ActionSwitch(table: map<string, Reducer>, state: Value, action: Value): (r: Value)
    ensures Dispatches(table, action) ==> r == table[action.fields["type"].s](state, action)
    ensures !Dispatches(table, action) ==> r == Nah
  {
    if Dispatches(table, action) then table[action.fields["type"].s](state, action)
    else Nah
  }

  /** `actionSwitch(table)` as the reducer it returns: it hands an action the
      table knows to that entry, and declines every other action. */
  function Switch(table: map<string, Reducer>): (r: Reducer)
    ensures forall state, action :: Dispatches(table, action) ==>
              r(state, action) == table[action.fields["type"].s](state, action)
    ensures forall state, action :: !Dispatches(table, action) ==> r(state, action) == Nah
  {
    (state, action) => ActionSwitch(table, state, action)
  }

  // ---------------------------------------------------------------------
  // bindActionCreator

  /** Presence of an optional argument. */
  datatype Option<T> = None | Some(value: T)

  /** What `bindActionCreator` hands back: the bound creator, or (when no
      creator is given) a binder still waiting for one. */
  datatype Bound =
    | Composed(call: seq<Value> -> Value)
    | Curried(bind: (seq<Value> -> Value) -> (seq<Value> -> Value))

  /** `bindActionCreator(dispatch, fn)`; `None` stands for a missing `fn`.
      Bound, every call dispatches what the creator makes of the arguments;
      curried, binding a creator later gives the same calls. */
  function BindActionCreator(dispatch: Value -> Value, fn: Option<seq<Value> -> Value>): (r: Bound)
    ensures fn.Some? ==> r.Composed? && forall args :: r.call(args) == dispatch(fn.value(args))
    ensures fn.None? ==> r.Curried? && forall f, args :: r.bind(f)(args) == dispatch(f(args))
  {
    match fn
    case Some(f) => Composed(Then(dispatch, f))
    case None => Curried(f => Then(dispatch, f))
  }

  /** The creator followed by `dispatch`. */
  function Then(dispatch: Value -> Value, f: seq<Value> -> Value): seq<Value> -> Value {
    args => dispatch(f(args))
  }

  /** Binding through the curried form is the same as binding at once. */
  lemma CurriedBindsAlike(dispatch: Value -> Value, f: seq<Value> -> Value, args: seq<Value>)
    ensures BindActionCreator(dispatch, None).bind(f)(args) == BindActionCreator(dispatch, Some(f)).call(args)
  {
  }

  // ---------------------------------------------------------------------
  // lazify

  /** `lazify(fn)(state, value)`: the sentinel when `fn` leaves the state as
      it was, otherwise whatever `fn` returns (so also the sentinel when `fn`
      itself declines). A result other than the sentinel always differs from
      the state. */
  function Lazified(fn: Reducer, state: Value, value: Value): (r: Value)
    ensures r.Nah? <==> (fn(state, value) == state || fn(state, value).Nah?)
    ensures !r.Nah? ==> r == fn(state, value) && r != state
  {
    var next := fn(state, value);
    if next == state then Nah else next
  }

  /** `lazify(fn)` as the reducer it returns: it declines exactly when `fn`
      leaves the state as it was (or declines itself), and otherwise passes
      on `fn`'s result. */
  function Lazify(fn: Reducer): (r: Reducer)
    ensures forall state, value :: r(state, value).Nah? <==> (fn(state, value) == state || fn(state, value).Nah?)
    ensures forall state, value :: !r(state, value).Nah? ==> r(state, value) == fn(state, value)
  {
    (state, value) => Lazified(fn, state, value)
  }

  // ---------------------------------------------------------------------
  // mapObject

  /** A property read: `undefined` for a missing key. */
  function Get(m: map<string, Value>, k: string): (r: Value)
    ensures k !in m ==> r == Undef
    ensures k in m ==> r == m[k]
  {
    if k in m then m[k] else Undef
  }

  /** `mapObject(func, obj)` of es6/index.js: a new object with the same keys,
      each value `func(obj[key], key)`. */
  method MapObject(func: (Value, string) -> Value, obj: Value) returns (r: Value)
    ensures r.Obj? && r.fields.Keys == Fields(obj).Keys
    ensures forall k :: k in r.fields ==> r.fields[k] == func(Fields(obj)[k], k)
  {
    var newObj: map<string, Value> := map[];
    var rest := Fields(obj).Keys;
    while rest != {}
      invariant rest <= Fields(obj).Keys
      invariant newObj.Keys == Fields(obj).Keys - rest
      invariant forall k :: k in newObj ==> newObj[k] == func(Fields(obj)[k], k)
      decreases rest
    {
      var key :| key in rest;
      newObj := newObj[key := func(Get(Fields(obj), key), key)];
      rest := rest - {key};
    }
    r := Obj(newObj);
  }

  /** `mapObject(func, obj)` as index.js writes it: the value passed to
      `func` is read from the object under construction, which never has the
      key yet, so every output is `func(undefined, key)` and the input's
      values are never consulted. */
  method MapObjectAsWritten(func: (Value, string) -> Value, obj: Value) returns (r: Value)
    ensures r.Obj? && r.fields.Keys == Fields(obj).Keys
    ensures forall k :: k in r.fields ==> r.fields[k] == func(Undef, k)
  {
    var newObj: map<string, Value> := map[];
    var rest := Fields(obj).Keys;
    while rest != {}
      invariant rest <= Fields(obj).Keys
      invariant newObj.Keys == Fields(obj).Keys - rest
      invariant forall k :: k in newObj ==> newObj[k] == func(Undef, k)
      decreases rest
    {
      var key :| key in rest;
      newObj := newObj[key := func(Get(newObj, key), key)];
      rest := rest - {key};
    }
    r := Obj(newObj);
  }
}

=== FILE: properties.dfy ===
/** Properties relating the engine to the definitions and helpers: what each
    kind of node does on update, for every store it can sit in. */
module Properties {
  import opened Values
  import opened Engine
  import opened Wiring
  import opened Helpers

  /** `update(nah)` leaves every cell as it is and publishes nothing. */
  lemma UpdateNahIsNoOp(s: Store, h: seq<nat>, id: NodeId)
    requires WellFormed(s) && Ranked(s.subs, h)
    requires id < |s.cells| && s.kinds[id].Updatable()
    ensures Update(s, h, id, Nah) == Step(s, [])
  {
  }

  /** A value atom publishes every value it is given, the very state it
      already holds included; no reducer is consulted. */
  lemma ValueAtomRepublishes(s: Store, h: seq<nat>, id: NodeId, v: Value)
    requires WellFormed(s) && Ranked(s.subs, h)
    requires id < |s.cells| && s.kinds[id].Replacing?
    requires !v.Nah?
    ensures Read(Update(s, h, id, v).store, id) == v
    ensures Update(s, h, id, v).trace[0] == Publication(id, v)
    ensures Count(Update(s, h, id, v).trace, id) == 1
  {
    UpdatePublishesOnce(s, h, id, v);
  }

  /** An atom made by `atomify(fn)` takes `fn(v)` whatever it held before. */
  lemma AtomifyForgetsState(s: Store, h: seq<nat>, id: NodeId, fn: Value -> Value, v: Value)
    requires WellFormed(s) && Ranked(s.subs, h)
    requires id < |s.cells| && s.kinds[id].Reducing?
    requires forall st, x :: s.kinds[id].reducer(st, x) == fn(x)
    requires !v.Nah? && !fn(v).Nah?
    ensures Read(Update(s, h, id, v).store, id) == fn(v)
  {
    assert Proposal(s.kinds[id], Read(s, id), v) == fn(v);
  }

  /** An atom whose reducer is `actionSwitch(table)` ignores an action the
      table has no entry for: nothing changes, nothing is published. */
  lemma SwitchIgnoresUnknownAction(s: Store, h: seq<nat>, id: NodeId, table: map<string, Reducer>, action: Value)
    requires WellFormed(s) && Ranked(s.subs, h)
    requires id < |s.cells| && s.kinds[id].Reducing?
    requires forall st, x :: s.kinds[id].reducer(st, x) == Switch(table)(st, x)
    requires !Dispatches(table, action)
    ensures Update(s, h, id, action) == Step(s, [])
  {
    assert Proposal(s.kinds[id], Read(s, id), action) == Nah;
  }

  /** An atom whose reducer is `lazify(fn)` publishes only real changes: when
      `fn` returns the state it was given, nothing is published, and whatever
      is published differs from the state the atom held. */
  lemma LazyAtomPublishesChangesOnly(s: Store, h: seq<nat>, id: NodeId, fn: Reducer, v: Value)
    requires WellFormed(s) && Ranked(s.subs, h)
    requires id < |s.cells| && s.kinds[id].Reducing?
    requires forall st, x :: s.kinds[id].reducer(st, x) == Lazify(fn)(st, x)
    ensures fn(Read(s, id), v) == Read(s, id) ==> Update(s, h, id, v) == Step(s, [])
    ensures |Update(s, h, id, v).trace| > 0 ==>
              Update(s, h, id, v).trace[0].value != Read(s, id)
  {
    var r := Update(s, h, id, v);
    if !v.Nah? {
      assert Proposal(s.kinds[id], Read(s, id), v) == Lazified(fn, Read(s, id), v);
    }
  }

  /** A topic with two subscribers: the publication comes first, then the
      whole cascade of the first subscriber, then that of the second, which
      runs in the store the first one left behind. */
  lemma PublishRunsSubscribersInOrder(s: Store, h: seq<nat>, t: NodeId, v: Value)
    requires WellFormed(s) && Ranked(s.subs, h)
    requires t < |s.cells| && !v.Nah? && |s.subs[t]| == 2
    ensures var a := Handle(s, h, t, 0, v);
            var b := Handle(a.store, h, t, 1, v);
            Publish(s, h, t, v) == Step(b.store, [Publication(t, v)] + a.trace + b.trace)
  {
    var a := Handle(s, h, t, 0, v);
    var b := Handle(a.store, h, t, 1, v);
    assert Deliver(b.store, h, t, v, 2) == Step(b.store, []);
    assert Deliver(a.store, h, t, v, 1) == Step(b.store, b.trace + []);
    assert Deliver(s, h, t, v, 0) == Step(b.store, a.trace + (b.trace + []));
    assert [Publication(t, v)] + (a.trace + (b.trace + [])) == [Publication(t, v)] + a.trace + b.trace;
  }

  /** A sink never lets an earlier source override a key a later source
      has: after source `i` delivers `v`, key `k` of a later source `j`
      still holds what the later sources say, whatever `v` is. */
  lemma SinkKeepsLaterKeys(s: Store, h: seq<nat>, f: NodeId, i: nat, j: nat, k: string, v: Value)
    requires WellFormed(s) && Ranked(s.subs, h)
    requires f < |s.cells| && IsSink(s, f)
    requires i < j < s.kinds[f].arity
    requires k in Fields(s.cells[f].slots[j])
    requires !v.Nah?
    ensures var r := ReceiveFormula(s, h, f, i, v);
            && Read(r.store, f).Obj?
            && k in Read(r.store, f).fields
            && Read(r.store, f).fields[k] == MergeFields(s.cells[f].slots)[k]
  {
    var slots := s.cells[f].slots;
    assert s.kinds[f].formula(slots[i := v]) == Merge(slots[i := v]);
    MergeLaterWins(slots, i, j, k, v);
  }

  /** In index.js every `combine` handler patches the last key: with two or
      more keys, the first source's handler patches a key other than its own. */
  lemma SharedKeyMisdirects(c: NodeId, entries: seq<(string, NodeId)>)
    requires |entries| >= 2 && DistinctKeys(entries)
    ensures SharedKeyHandlers(c, entries)[0] != KeyHandlers(c, entries)[0]
  {
    assert entries[0].0 != entries[|entries| - 1].0;
  }

  /** With a single key the two versions of `combine` register the same
      handler, so the single-key behaviour agrees. */
  lemma SingleKeyCombineAgrees(c: NodeId, entries: seq<(string, NodeId)>)
    requires |entries| == 1
    ensures SharedKeyHandlers(c, entries) == KeyHandlers(c, entries)
  {
  }
}

=== FILE: scenarios.dfy ===
/** Concrete stores from the library's own test expectations (test/test.js),
    worked through the model: the link chain, sink overriding, a formula
    declining, and the two places where index.js departs from es6/index.js. */
module Scenarios {
  import opened Values
  import opened Engine
  import opened Wiring
  import opened Helpers
  import opened Properties

  /** `x => x * 2` on numbers. */
  function Double(v: Value): Value {
    if v.Int? then Int(2 * v.i) else Undef
  }

  /** `(state, x) => state + x` on numbers. */
  function Add(state: Value, x: Value): Value {
    if state.Int? && x.Int? then Int(state.i + x.i) else Undef
  }

  // ---------------------------------------------------------------------
  // Single steps of a cascade

  /** An update whose proposal is `p`, not the sentinel, commits `p` and
      publishes it. */
  lemma UpdateAccepts(s: Store, h: seq<nat>, id: NodeId, v: Value, p: Value)
    requires WellFormed(s) && Ranked(s.subs, h)
    requires id < |s.cells| && s.kinds[id].Updatable()
    requires Proposal(s.kinds[id], Read(s, id), v) == p && !p.Nah?
    ensures Update(s, h, id, v) == Publish(Commit(s, id, p), h, id, p)
  {
  }

  /** A topic nobody listens to: the publication and nothing else. */
  lemma PublishUnheard(s: Store, h: seq<nat>, t: NodeId, v: Value)
    requires WellFormed(s) && Ranked(s.subs, h)
    requires t < |s.cells| && !v.Nah? && s.subs[t] == []
    ensures Publish(s, h, t, v) == Step(s, [Publication(t, v)])
  {
    assert Deliver(s, h, t, v, 0) == Step(s, []);
  }

  /** A topic whose one listener is the `update` of the next atom in a link. */
  lemma PublishToLink(s: Store, h: seq<nat>, t: NodeId, b: NodeId, v: Value)
    requires WellFormed(s) && Ranked(s.subs, h)
    requires t < |s.cells| && !v.Nah? && s.subs[t] == [LinkUpdate(b)]
    ensures b < |s.cells| && s.kinds[b].Updatable()
    ensures Publish(s, h, t, v) ==
            Step(Update(s, h, b, v).store, [Publication(t, v)] + Update(s, h, b, v).trace)
  {
    assert Fitting(s.kinds, s.subs[t][0]);
    var a := Handle(s, h, t, 0, v);
    assert a == Update(s, h, b, v);
    assert Deliver(a.store, h, t, v, 1) == Step(a.store, []);
    assert Deliver(s, h, t, v, 0) == Step(a.store, a.trace + []);
  }

  /** A topic whose one listener is slot `i` of formula `f`. */
  lemma PublishToFormula(s: Store, h: seq<nat>, t: NodeId, f: NodeId, i: nat, v: Value)
    requires WellFormed(s) && Ranked(s.subs, h)
    requires t < |s.cells| && !v.Nah? && s.subs[t] == [FormulaSlot(f, i)]
    ensures f < |s.cells| && s.kinds[f].Deriving? && i < s.kinds[f].arity
    ensures Publish(s, h, t, v) ==
            Step(ReceiveFormula(s, h, f, i, v).store, [Publication(t, v)] + ReceiveFormula(s, h, f, i, v).trace)
  {
    assert Fitting(s.kinds, s.subs[t][0]);
    var a := Handle(s, h, t, 0, v);
    assert a == ReceiveFormula(s, h, f, i, v);
    assert Deliver(a.store, h, t, v, 1) == Step(a.store, []);
    assert Deliver(s, h, t, v, 0) == Step(a.store, a.trace + []);
  }

  /** A topic whose one listener is combinator `c`'s handler for `key`. */
  lemma PublishToCombine(s: Store, h: seq<nat>, t: NodeId, c: NodeId, key: string, v: Value)
    requires WellFormed(s) && Ranked(s.subs, h)
    requires t < |s.cells| && !v.Nah? && s.subs[t] == [CombineKey(c, key)]
    ensures c < |s.cells| && s.kinds[c].Combining?
    ensures Publish(s, h, t, v) ==
            Step(ReceiveCombine(s, h, c, key, v).store, [Publication(t, v)] + ReceiveCombine(s, h, c, key, v).trace)
  {
    assert Fitting(s.kinds, s.subs[t][0]);
    var a := Handle(s, h, t, 0, v);
    assert a == ReceiveCombine(s, h, c, key, v);
    assert Deliver(a.store, h, t, v, 1) == Step(a.store, []);
    assert Deliver(s, h, t, v, 0) == Step(a.store, a.trace + []);
  }

  // ---------------------------------------------------------------------
  // link(A, B, C)

  /** A = defineValueAtom(0), B = atomify(x => x * 2), C = defineAtom(+, 1),
      not yet linked. */
  function ChainAtoms(): (r: Store)
    ensures WellFormed(r) && |r.cells| == 3
    ensures r.kinds[0].Replacing? && r.kinds[1].Reducing? && r.kinds[2].Reducing?
    ensures forall st, x :: r.kinds[1].reducer(st, x) == Double(x)
    ensures forall st, x :: r.kinds[2].reducer(st, x) == Add(st, x)
    ensures Read(r, 0) == Int(0) && Read(r, 1) == Undef && Read(r, 2) == Int(1)
    ensures r.subs == [[], [], []]
  {
    var a := DefineValueAtom(Empty(), Int(0));
    var b := Atomify(a.store, Double, Undef);
    var c := DefineAtom(b.store, Add, Int(1));
    assert c.store.kinds[0] == b.store.kinds[0] == a.store.kinds[0];
    assert c.store.kinds[1] == b.store.kinds[1];
    assert c.store.cells[0] == b.store.cells[0] == a.store.cells[0];
    assert c.store.cells[1] == b.store.cells[1];
    c.store
  }

  /** `link(A, B, C)`: A forwards to B's `update`, B to C's. */
  function LinkChain(): (r: Store)
    ensures WellFormed(r) && Ranked(r.subs, [2, 1, 0]) && |r.cells| == 3
    ensures r.kinds == ChainAtoms().kinds && r.cells == ChainAtoms().cells
    ensures r.subs == [[LinkUpdate(1)], [LinkUpdate(2)], []]
  {
    var c := ChainAtoms();
    var atoms := [0, 1, 2];
    var hs := LinkHandlers(atoms);
    assert atoms[..|atoms| - 1] == [0, 1];
    assert hs == [LinkUpdate(1), LinkUpdate(2)];
    var l := Link(c, atoms);
    ChainSubs(c.subs, l.store.subs, hs);
    ChainRanked(l.store.subs);
    l.store
  }

  /** What registering `hs[0]` on node 0 and `hs[1]` on node 1 leaves in an
      empty registry of three topics. */
  lemma ChainSubs(before: seq<seq<Subscriber>>, after: seq<seq<Subscriber>>, hs: seq<Subscriber>)
    requires before == [[], [], []] && |after| == 3 && |hs| == 2
    requires forall t :: 0 <= t < 3 ==> after[t] == before[t] + Registered(t, [0, 1], hs)
    ensures after == [[hs[0]], [hs[1]], []]
  {
    TwoSourceRegistry(hs);
    assert after[0] == [hs[0]] && after[1] == [hs[1]] && after[2] == [];
    Three(after, [hs[0]], [hs[1]], []);
  }

  /** Each link of the chain hands down to a lower height. */
  lemma ChainRanked(subs: seq<seq<Subscriber>>)
    requires subs == [[LinkUpdate(1)], [LinkUpdate(2)], []]
    ensures Ranked(subs, [2, 1, 0])
  {
  }

  /** An atom whose one listener is the `update` of an atom nobody hears:
      both accept, so both publish, the first one first. */
  lemma UpdateIntoLastLink(s: Store, h: seq<nat>, a: NodeId, b: NodeId, v: Value, pa: Value, pb: Value)
    requires WellFormed(s) && Ranked(s.subs, h)
    requires a < |s.cells| && s.kinds[a].Updatable() && s.subs[a] == [LinkUpdate(b)]
    requires b < |s.cells| && b != a && s.kinds[b].Updatable() && s.subs[b] == []
    requires Proposal(s.kinds[a], Read(s, a), v) == pa && !pa.Nah?
    requires Proposal(s.kinds[b], Read(s, b), pa) == pb && !pb.Nah?
    ensures Update(s, h, a, v) ==
            Step(Commit(Commit(s, a, pa), b, pb), [Publication(a, pa), Publication(b, pb)])
  {
    var s1 := Commit(s, a, pa);
    assert Read(s1, b) == Read(s, b);
    PublishUnheard(Commit(s1, b, pb), h, b, pb);
    UpdateAccepts(s1, h, b, pa, pb);
    PublishToLink(s1, h, a, b, pa);
    UpdateAccepts(s, h, a, v, pa);
  }

  /** `A.update(1)` on the chain: B becomes 2 and C becomes 3, published
      depth first, A then B then C. */
  lemma LinkChainFromHead()
    ensures var u := Update(LinkChain(), [2, 1, 0], 0, Int(1));
            && Read(u.store, 0) == Int(1) && Read(u.store, 1) == Int(2) && Read(u.store, 2) == Int(3)
            && u.trace == [Publication(0, Int(1)), Publication(1, Int(2)), Publication(2, Int(3))]
  {
    var s, h := LinkChain(), [2, 1, 0];
    var s1 := Commit(s, 0, Int(1));
    var s2 := Commit(s1, 1, Int(2));
    var s3 := Commit(s2, 2, Int(3));
    assert Read(s2, 2) == Int(1);
    PublishUnheard(s3, h, 2, Int(3));
    UpdateAccepts(s2, h, 2, Int(2), Int(3));
    PublishToLink(s2, h, 1, 2, Int(2));
    UpdateAccepts(s1, h, 1, Int(1), Int(2));
    PublishToLink(s1, h, 0, 1, Int(1));
    UpdateAccepts(s, h, 0, Int(1), Int(1));
  }

  /** Then `B.update(2)` directly: B becomes 4 and C 7; A keeps 1. */
  lemma LinkChainFromMiddle()
    ensures var u := Update(LinkChain(), [2, 1, 0], 0, Int(1));
            var w := Update(u.store, [2, 1, 0], 1, Int(2));
            && Read(w.store, 0) == Int(1) && Read(w.store, 1) == Int(4) && Read(w.store, 2) == Int(7)
            && w.trace == [Publication(1, Int(4)), Publication(2, Int(7))]
  {
    LinkChainFromHead();
    var s := Update(LinkChain(), [2, 1, 0], 0, Int(1)).store;
    UpdateIntoLastLink(s, [2, 1, 0], 1, 2, Int(2), Int(4), Int(7));
  }

  // ---------------------------------------------------------------------
  // Two value atoms feeding a third node

  /** Two value atoms holding `a` and `b`. */
  function TwoAtoms(a: Value, b: Value): (r: Store)
    ensures r == Store([Replacing, Replacing], [Cell(a, []), Cell(b, [])], [[], []])
  {
    var x := DefineValueAtom(Empty(), a);
    var y := DefineValueAtom(x.store, b);
    assert y.store.kinds[0] == x.store.kinds[0];
    assert y.store.cells[0] == x.store.cells[0];
    y.store
  }

  /** Value atoms 0 and 1 holding `a` and `b`, node 2 of kind `k` in cell
      `c`, atom 0 heard by `x`, atom 1 by `y`, node 2 by `obs`. */
  function TwoInto(a: Value, b: Value, k: Kind, c: Cell, x: Subscriber, y: Subscriber, obs: seq<Subscriber>): Store {
    Store([Replacing, Replacing, k], [Cell(a, []), Cell(b, []), c], [[x], [y], obs])
  }

  /** Such a store is well-formed when its handlers fit node 2, and node 2
      sits below both atoms when it has observers only. */
  lemma TwoIntoRanked(a: Value, b: Value, k: Kind, c: Cell, x: Subscriber, y: Subscriber, obs: seq<Subscriber>)
    requires k.Deriving? ==> |c.slots| == k.arity
    requires Fitting([Replacing, Replacing, k], x) && !x.Observer? && Target(x) == 2
    requires Fitting([Replacing, Replacing, k], y) && !y.Observer? && Target(y) == 2
    requires forall j :: 0 <= j < |obs| ==> obs[j].Observer?
    ensures WellFormed(TwoInto(a, b, k, c, x, y, obs))
    ensures Ranked(TwoInto(a, b, k, c, x, y, obs).subs, [1, 1, 0])
  {
  }

  /** Who hears whom when sources 0 and 1 register one handler each. */
  lemma TwoSourceRegistry(hs: seq<Subscriber>)
    requires |hs| == 2
    ensures Registered(0, [0, 1], hs) == [hs[0]]
    ensures Registered(1, [0, 1], hs) == [hs[1]]
    ensures Registered(2, [0, 1], hs) == []
  {
    assert Registered(0, [1], [hs[1]]) == [];
    assert Registered(1, [1], [hs[1]]) == [hs[1]];
    assert Registered(2, [1], [hs[1]]) == [];
    assert [0, 1][1..] == [1] && hs[1..] == [hs[1]];
  }

  /** What registering `hs[0]` on node 0 and `hs[1]` on node 1 leaves in a
      registry that was empty, once a third node is appended. */
  lemma FanInSubs(before: seq<seq<Subscriber>>, after: seq<seq<Subscriber>>, hs: seq<Subscriber>)
    requires before == [[], []] && |after| == 3 && |hs| == 2
    requires after[0] == before[0] + Registered(0, [0, 1], hs)
    requires after[1] == before[1] + Registered(1, [0, 1], hs)
    requires after[2] == []
    ensures after == [[hs[0]], [hs[1]], []]
  {
    FanInEach(before, after, hs);
    Three(after, [hs[0]], [hs[1]], []);
  }

  lemma FanInEach(before: seq<seq<Subscriber>>, after: seq<seq<Subscriber>>, hs: seq<Subscriber>)
    requires before == [[], []] && |after| == 3 && |hs| == 2
    requires after[0] == before[0] + Registered(0, [0, 1], hs)
    requires after[1] == before[1] + Registered(1, [0, 1], hs)
    ensures after[0] == [hs[0]] && after[1] == [hs[1]]
  {
    TwoSourceRegistry(hs);
  }

  /** A list of three entries is the display of its entries. */
  lemma Three<T>(l: seq<T>, x: T, y: T, z: T)
    requires |l| == 3 && l[0] == x && l[1] == y && l[2] == z
    ensures l == [x, y, z]
  {
  }

  /** A node appended to two atoms: its store is the display of its parts. */
  lemma AppendedToTwo(a: Value, b: Value, s: Store, r: Store, k: Kind, c: Cell, x: Subscriber, y: Subscriber, obs: seq<Subscriber>)
    requires s == TwoAtoms(a, b)
    requires |r.cells| == 3 && r.kinds == s.kinds + [k]
    requires r.cells[..2] == s.cells && r.cells[2] == c
    requires r.subs == [[x], [y], obs]
    ensures r == TwoInto(a, b, k, c, x, y, obs)
  {
    assert r.cells[0] == s.cells[0] && r.cells[1] == s.cells[1];
    Three(r.cells, s.cells[0], s.cells[1], c);
    Three(r.kinds, Replacing, Replacing, k);
  }

  // ---------------------------------------------------------------------
  // combine({foo, bar})

  /** The entries of `{foo: fooAtom, bar: barAtom}` in enumeration order. */
  function FooBar(): (r: seq<(string, NodeId)>)
    ensures DistinctKeys(r) && forall i :: 0 <= i < |r| ==> r[i].1 < 2
  {
    [("foo", 0), ("bar", 1)]
  }

  /** The initial mapping of `combine({foo: fooAtom, bar: barAtom})`. */
  lemma FooBarSnapshot()
    ensures Snapshot(TwoAtoms(Int(0), Int(1)), FooBar()) == map["foo" := Int(0), "bar" := Int(1)]
  {
    var s := TwoAtoms(Int(0), Int(1));
    var entries := FooBar();
    assert entries[1..] == [("bar", 1)];
    assert [("bar", 1)][1..] == [];
    assert Snapshot(s, [("bar", 1)]) == map["bar" := Int(1)];
  }

  function FooBarObj(foo: int, bar: int): Value {
    Obj(map["foo" := Int(foo), "bar" := Int(bar)])
  }

  function BarObj(bar: int): Value {
    Obj(map["bar" := Int(bar)])
  }

  /** fooAtom = defineValueAtom(0), barAtom = defineValueAtom(1) and a
      combinator over them whose handler on fooAtom patches `first`: "foo"
      as es6/index.js registers it, "bar" as index.js does. */
  function CombinedFooBar(first: string): Store {
    TwoInto(Int(0), Int(1), Combining, Cell(FooBarObj(0, 1), []), CombineKey(2, first), CombineKey(2, "bar"), [])
  }

  /** The combinator `AddCombinator` puts over the two atoms. */
  lemma FooBarCombinator(first: string, hs: seq<Subscriber>)
    requires hs == [CombineKey(2, first), CombineKey(2, "bar")]
    ensures AddCombinator(TwoAtoms(Int(0), Int(1)), [0, 1], hs, FooBarObj(0, 1)).store == CombinedFooBar(first)
  {
    var s := TwoAtoms(Int(0), Int(1));
    var b := AddCombinator(s, [0, 1], hs, FooBarObj(0, 1));
    FanInSubs(s.subs, b.store.subs, hs);
    AppendedToTwo(Int(0), Int(1), s, b.store, Combining, Cell(FooBarObj(0, 1), []), hs[0], hs[1], []);
  }

  /** es6/index.js's `combine({foo: fooAtom, bar: barAtom})` builds
      `CombinedFooBar("foo")`. */
  lemma CombineBuildsOwnKeys()
    ensures Combine(TwoAtoms(Int(0), Int(1)), FooBar()).store == CombinedFooBar("foo")
  {
    var entries := FooBar();
    var hs := KeyHandlers(2, entries);
    assert Sources(entries) == [0, 1];
    assert hs == [CombineKey(2, "foo"), CombineKey(2, "bar")];
    FooBarSnapshot();
    FooBarCombinator("foo", hs);
  }

  /** index.js's `combine({foo: fooAtom, bar: barAtom})` builds
      `CombinedFooBar("bar")`. */
  lemma CombineSharedBuildsLastKey()
    ensures CombineShared(TwoAtoms(Int(0), Int(1)), FooBar()).store == CombinedFooBar("bar")
  {
    var entries := FooBar();
    var hs := SharedKeyHandlers(2, entries);
    assert Sources(entries) == [0, 1];
    assert hs == [CombineKey(2, "bar"), CombineKey(2, "bar")];
    FooBarSnapshot();
    FooBarCombinator("bar", hs);
  }

  /** A value atom heard only by a combinator nobody hears: the atom
      publishes, then the combinator publishes its patched mapping. */
  lemma ValueAtomIntoCombinator(s: Store, h: seq<nat>, t: NodeId, c: NodeId, key: string, v: Value)
    requires WellFormed(s) && Ranked(s.subs, h)
    requires t < |s.cells| && s.kinds[t].Replacing? && !v.Nah?
    requires s.subs[t] == [CombineKey(c, key)]
    requires c < |s.cells| && s.subs[c] == []
    ensures var next := Obj(Fields(Read(s, c))[key := v]);
            Update(s, h, t, v) ==
            Step(Commit(Commit(s, t, v), c, next), [Publication(t, v), Publication(c, next)])
  {
    var next := Obj(Fields(Read(s, c))[key := v]);
    var s1 := Commit(s, t, v);
    assert Fitting(s.kinds, s.subs[t][0]);
    assert Read(s1, c) == Read(s, c);
    PublishUnheard(Commit(s1, c, next), h, c, next);
    PublishToCombine(s1, h, t, c, key, v);
    UpdateAccepts(s, h, t, v, v);
  }

  /** `fooAtom.update(2)` through es6/index.js's combinator: `foo` becomes 2
      and `bar` stays 1; fooAtom publishes, then the combinator. */
  lemma CombineUpdatesOwnKey()
    ensures var u := Update(CombinedFooBar("foo"), [1, 1, 0], 0, Int(2));
            && Read(u.store, 2) == FooBarObj(2, 1)
            && u.trace == [Publication(0, Int(2)), Publication(2, FooBarObj(2, 1))]
  {
    TwoIntoRanked(Int(0), Int(1), Combining, Cell(FooBarObj(0, 1), []), CombineKey(2, "foo"), CombineKey(2, "bar"), []);
    assert map["foo" := Int(0), "bar" := Int(1)]["foo" := Int(2)] == map["foo" := Int(2), "bar" := Int(1)];
    ValueAtomIntoCombinator(CombinedFooBar("foo"), [1, 1, 0], 0, 2, "foo", Int(2));
  }

  /** The same update through index.js's combinator: the handler on fooAtom
      patches `bar`, so `foo` stays 0 and `bar` becomes 2. */
  lemma CombineSharedKeyMisroutes()
    ensures var u := Update(CombinedFooBar("bar"), [1, 1, 0], 0, Int(2));
            && Read(u.store, 2) == FooBarObj(0, 2)
            && u.trace == [Publication(0, Int(2)), Publication(2, FooBarObj(0, 2))]
  {
    TwoIntoRanked(Int(0), Int(1), Combining, Cell(FooBarObj(0, 1), []), CombineKey(2, "bar"), CombineKey(2, "bar"), []);
    assert map["foo" := Int(0), "bar" := Int(1)]["bar" := Int(2)] == map["foo" := Int(0), "bar" := Int(2)];
    ValueAtomIntoCombinator(CombinedFooBar("bar"), [1, 1, 0], 0, 2, "bar", Int(2));
  }

  // ---------------------------------------------------------------------
  // defineFormula and sink

  /** `defineFormula(formula, atomA, atomB)` over two value atoms: slot `i`
      listens to atom `i`, and the state is `formula` of both. */
  lemma FormulaOverTwo(a: Value, b: Value, formula: seq<Value> -> Value)
    ensures DefineFormula(TwoAtoms(a, b), formula, [0, 1]).store ==
            TwoInto(a, b, Deriving(formula, 2), Cell(formula([a, b]), [a, b]), FormulaSlot(2, 0), FormulaSlot(2, 1), [])
  {
    var s := TwoAtoms(a, b);
    var hs := FormulaSlots(2, 2);
    assert hs == [FormulaSlot(2, 0), FormulaSlot(2, 1)];
    var d := DefineFormula(s, formula, [0, 1]);
    FanInSubs(s.subs, d.store.subs, hs);
    assert d.store.cells[2].slots == [a, b];
    AppendedToTwo(a, b, s, d.store, Deriving(formula, 2), Cell(formula([a, b]), [a, b]), hs[0], hs[1], []);
  }

  /** A value atom heard only by slot `i` of a formula: the atom publishes,
      the slot takes the value, and the formula publishes its new state. */
  lemma ValueAtomIntoFormula(s: Store, h: seq<nat>, t: NodeId, f: NodeId, i: nat, v: Value, slots: seq<Value>)
    requires WellFormed(s) && Ranked(s.subs, h)
    requires t < |s.cells| && s.kinds[t].Replacing? && !v.Nah?
    requires s.subs[t] == [FormulaSlot(f, i)]
    requires f < |s.cells| && f != t && s.kinds[f].Deriving? && i < s.kinds[f].arity
    requires s.subs[f] == []
    requires slots == s.cells[f].slots[i := v] && !s.kinds[f].formula(slots).Nah?
    ensures var u := Update(s, h, t, v);
            && u.store.cells[f] == Cell(s.kinds[f].formula(slots), slots)
            && u.trace == [Publication(t, v), Publication(f, s.kinds[f].formula(slots))]
  {
    var p := s.kinds[f].formula(slots);
    var s1 := Commit(s, t, v);
    assert s1.cells[f] == s.cells[f];
    var s2 := s1.(cells := s1.cells[f := s1.cells[f].(slots := slots)]);
    PublishUnheard(Commit(s2, f, p), h, f, p);
    PublishToFormula(s1, h, t, f, i, v);
    UpdateAccepts(s, h, t, v, v);
  }

  /** The same when the formula computes the sentinel: the slot still takes
      the value, but the formula keeps its state and publishes nothing. */
  lemma ValueAtomIntoDecliningFormula(s: Store, h: seq<nat>, t: NodeId, f: NodeId, i: nat, v: Value, slots: seq<Value>)
    requires WellFormed(s) && Ranked(s.subs, h)
    requires t < |s.cells| && s.kinds[t].Replacing? && !v.Nah?
    requires s.subs[t] == [FormulaSlot(f, i)]
    requires f < |s.cells| && f != t && s.kinds[f].Deriving? && i < s.kinds[f].arity
    requires slots == s.cells[f].slots[i := v] && s.kinds[f].formula(slots).Nah?
    ensures var u := Update(s, h, t, v);
            && u.store.cells[f] == Cell(Read(s, f), slots)
            && u.trace == [Publication(t, v)]
  {
    var s1 := Commit(s, t, v);
    assert s1.cells[f] == s.cells[f];
    PublishToFormula(s1, h, t, f, i, v);
    UpdateAccepts(s, h, t, v, v);
  }

  /** `(a, b) => (a && b) || nah` on booleans: `true` when both are, the
      sentinel otherwise. */
  function BothOrNah(vs: seq<Value>): Value {
    if |vs| == 2 && vs[0] == Bool(true) && vs[1] == Bool(true) then Bool(true) else Nah
  }

  /** Two value atoms holding `true`, a formula `BothOrNah` over them, and
      an observer (`flag`) on the formula. */
  function FlaggedFormula(): Store {
    TwoInto(Bool(true), Bool(true), Deriving(BothOrNah, 2), Cell(Bool(true), [Bool(true), Bool(true)]),
            FormulaSlot(2, 0), FormulaSlot(2, 1), [Observer(0)])
  }

  /** Defining the formula and subscribing the observer builds that store. */
  lemma FlaggedFormulaBuilt()
    ensures Observe(DefineFormula(TwoAtoms(Bool(true), Bool(true)), BothOrNah, [0, 1]).store, 2, 0) == FlaggedFormula()
  {
    FormulaOverTwo(Bool(true), Bool(true), BothOrNah);
    var s := DefineFormula(TwoAtoms(Bool(true), Bool(true)), BothOrNah, [0, 1]).store;
    var r := Observe(s, 2, 0);
    var none: seq<Subscriber> := [];
    assert s.subs[2] == none && none + [Observer(0)] == [Observer(0)];
    Three(r.subs, [FormulaSlot(2, 0)], [FormulaSlot(2, 1)], [Observer(0)]);
  }

  /** `atomA.update(false)`: the formula computes the sentinel, so it keeps
      `true`, only its slot moves, and the observer never fires. */
  lemma FormulaIgnoresNah()
    ensures var u := Update(FlaggedFormula(), [1, 1, 0], 0, Bool(false));
            && u.store.cells[2] == Cell(Bool(true), [Bool(false), Bool(true)])
            && u.trace == [Publication(0, Bool(false))]
  {
    TwoIntoRanked(Bool(true), Bool(true), Deriving(BothOrNah, 2), Cell(Bool(true), [Bool(true), Bool(true)]),
                  FormulaSlot(2, 0), FormulaSlot(2, 1), [Observer(0)]);
    var slots := [Bool(false), Bool(true)];
    assert [Bool(true), Bool(true)][0 := Bool(false)] == slots;
    ValueAtomIntoDecliningFormula(FlaggedFormula(), [1, 1, 0], 0, 2, 0, Bool(false), slots);
  }

  /** fooAtom = {foo: 0, bar: 1}, barAtom = {bar: 2}, sunk = sink(fooAtom,
      barAtom): the later source wins on `bar`. */
  function Sunk(): Store {
    TwoInto(FooBarObj(0, 1), BarObj(2), Deriving(Merge, 2), Cell(FooBarObj(0, 2), [FooBarObj(0, 1), BarObj(2)]),
            FormulaSlot(2, 0), FormulaSlot(2, 1), [])
  }

  /** `sink(fooAtom, barAtom)` builds that store: its initial state is the
      merge of both atoms. */
  lemma SunkBuilt()
    ensures Sink(TwoAtoms(FooBarObj(0, 1), BarObj(2)), [0, 1]).store == Sunk()
  {
    FormulaOverTwo(FooBarObj(0, 1), BarObj(2), Merge);
    MergeFooBar(1, 2);
  }

  /** `merge({foo, bar: b}, {bar: c})` is `{foo, bar: c}`. */
  lemma MergeFooBar(b: int, c: int)
    ensures Merge([FooBarObj(0, b), BarObj(c)]) == FooBarObj(0, c)
  {
    MergePair(FooBarObj(0, b), BarObj(c));
    assert map["foo" := Int(0), "bar" := Int(b)] + map["bar" := Int(c)] == map["foo" := Int(0), "bar" := Int(c)];
  }

  /** `fooAtom.update({foo: 0, bar: 1})` changes nothing in the sink: barAtom
      still overrides `bar`; the sink republishes the same mapping. */
  lemma SinkShadowedUpdate()
    ensures var u := Update(Sunk(), [1, 1, 0], 0, FooBarObj(0, 1));
            && u.store == Sunk().(cells := Sunk().cells[0 := Cell(FooBarObj(0, 1), [])])
            && u.trace == [Publication(0, FooBarObj(0, 1)), Publication(2, FooBarObj(0, 2))]
  {
    var s := Sunk();
    TwoIntoRanked(FooBarObj(0, 1), BarObj(2), Deriving(Merge, 2), Cell(FooBarObj(0, 2), [FooBarObj(0, 1), BarObj(2)]),
                  FormulaSlot(2, 0), FormulaSlot(2, 1), []);
    var slots := [FooBarObj(0, 1), BarObj(2)];
    assert s.cells[2].slots[0 := FooBarObj(0, 1)] == slots;
    MergeFooBar(1, 2);
    ValueAtomIntoFormula(s, [1, 1, 0], 0, 2, 0, FooBarObj(0, 1), slots);
    var u := Update(s, [1, 1, 0], 0, FooBarObj(0, 1));
    Three(u.store.cells, Cell(FooBarObj(0, 1), []), s.cells[1], s.cells[2]);
  }

  /** Then `barAtom.update({bar: 3})`: the sink's `bar` becomes 3. */
  lemma SinkLaterUpdate()
    ensures var u := Update(Sunk(), [1, 1, 0], 0, FooBarObj(0, 1));
            var w := Update(u.store, [1, 1, 0], 1, BarObj(3));
            && w.store.cells[2] == Cell(FooBarObj(0, 3), [FooBarObj(0, 1), BarObj(3)])
            && w.trace == [Publication(1, BarObj(3)), Publication(2, FooBarObj(0, 3))]
  {
    SinkShadowedUpdate();
    var s := Sunk().(cells := Sunk().cells[0 := Cell(FooBarObj(0, 1), [])]);
    TwoIntoRanked(FooBarObj(0, 1), BarObj(2), Deriving(Merge, 2), Cell(FooBarObj(0, 2), [FooBarObj(0, 1), BarObj(2)]),
                  FormulaSlot(2, 0), FormulaSlot(2, 1), []);
    var slots := [FooBarObj(0, 1), BarObj(3)];
    assert s.cells[2].slots[1 := BarObj(3)] == slots;
    MergeFooBar(1, 3);
    ValueAtomIntoFormula(s, [1, 1, 0], 1, 2, 1, BarObj(3), slots);
  }

  // ---------------------------------------------------------------------
  // A diamond: one atom heard by a formula and, through a link, by the
  // formula's other source

  /** `(a, b) => a + b` on numbers. */
  function Sum(vs: seq<Value>): Value {
    if |vs| == 2 && vs[0].Int? && vs[1].Int? then Int(vs[0].i + vs[1].i) else Undef
  }

  lemma SumOfTwo(x: int, y: int)
    ensures Sum([Int(x), Int(y)]) == Int(x + y)
  {
  }

  /** Value atoms A (node 0) and B (node 1) holding `a` and `b`, formula F
      (node 2) in cell `f` summing them, and `link(A, B)`: A's topic has F's
      slot 0 first and B's `update` second, in the order they were
      registered. */
  function Diamond(a: Value, b: Value, f: Cell): Store {
    Store([Replacing, Replacing, Deriving(Sum, 2)],
          [Cell(a, []), Cell(b, []), f],
          [[FormulaSlot(2, 0), LinkUpdate(1)], [FormulaSlot(2, 1)], []])
  }

  /** A sits above B, which sits above F. */
  lemma DiamondRanked(a: Value, b: Value, f: Cell)
    requires |f.slots| == 2
    ensures WellFormed(Diamond(a, b, f)) && Ranked(Diamond(a, b, f).subs, [2, 1, 0])
  {
  }

  /** The formula over A and B before the link. */
  function SumOverTwo(x: int, y: int): Store {
    TwoInto(Int(x), Int(y), Deriving(Sum, 2), Cell(Int(x + y), [Int(x), Int(y)]), FormulaSlot(2, 0), FormulaSlot(2, 1), [])
  }

  /** `defineFormula(sum, A, B)` followed by `link(A, B)` builds the
      settled diamond over A's and B's values. */
  lemma DiamondBuilt(x: int, y: int)
    ensures DefineFormula(TwoAtoms(Int(x), Int(y)), Sum, [0, 1]).store == SumOverTwo(x, y)
    ensures WellFormed(SumOverTwo(x, y)) && Link(SumOverTwo(x, y), [0, 1]).Linked?
    ensures Link(SumOverTwo(x, y), [0, 1]).store == Diamond(Int(x), Int(y), Cell(Int(x + y), [Int(x), Int(y)]))
  {
    FormulaOverTwo(Int(x), Int(y), Sum);
    LinkSumOverTwo(x, y);
  }

  lemma LinkSumOverTwo(x: int, y: int)
    ensures WellFormed(SumOverTwo(x, y))
    ensures Link(SumOverTwo(x, y), [0, 1]).Linked?
    ensures Link(SumOverTwo(x, y), [0, 1]).store == Diamond(Int(x), Int(y), Cell(Int(x + y), [Int(x), Int(y)]))
  {
    var d := SumOverTwo(x, y);
    TwoIntoRanked(Int(x), Int(y), Deriving(Sum, 2), Cell(Int(x + y), [Int(x), Int(y)]), FormulaSlot(2, 0), FormulaSlot(2, 1), []);
    var l := Link(d, [0, 1]);
    var hs := LinkHandlers([0, 1]);
    assert hs == [LinkUpdate(1)];
    assert [0, 1][..1] == [0];
    assert Registered(0, [0], hs) == [LinkUpdate(1)];
    assert Registered(1, [0], hs) == [] && Registered(2, [0], hs) == [];
    assert l.store.subs[0] == [FormulaSlot(2, 0)] + [LinkUpdate(1)];
    Two(l.store.subs[0], FormulaSlot(2, 0), LinkUpdate(1));
    Three(l.store.subs, [FormulaSlot(2, 0), LinkUpdate(1)], [FormulaSlot(2, 1)], []);
  }

  /** Committing to one of the atoms keeps the diamond's shape. */
  lemma DiamondCommit(a: Value, b: Value, f: Cell, v: Value)
    ensures Commit(Diamond(a, b, f), 0, v) == Diamond(v, b, f)
    ensures Commit(Diamond(a, b, f), 1, v) == Diamond(a, v, f)
  {
    Three(Commit(Diamond(a, b, f), 0, v).cells, Cell(v, []), Cell(b, []), f);
    Three(Commit(Diamond(a, b, f), 1, v).cells, Cell(a, []), Cell(v, []), f);
  }

  /** Slot `i` of F receiving a number while the other slot holds one: F
      takes the sum and publishes it, and nobody hears F. */
  lemma DiamondFormulaHears(a: Value, b: Value, f: Cell, i: nat, v: Value)
    requires |f.slots| == 2 && i < 2 && f.slots[0].Int? && f.slots[1].Int? && v.Int?
    ensures WellFormed(Diamond(a, b, f)) && Ranked(Diamond(a, b, f).subs, [2, 1, 0])
    ensures var slots := f.slots[i := v];
            ReceiveFormula(Diamond(a, b, f), [2, 1, 0], 2, i, v) ==
            Step(Diamond(a, b, Cell(Sum(slots), slots)), [Publication(2, Sum(slots))])
  {
    DiamondRanked(a, b, f);
    var s, h := Diamond(a, b, f), [2, 1, 0];
    var slots := f.slots[i := v];
    var s' := s.(cells := s.cells[2 := s.cells[2].(slots := slots)]);
    PublishUnheard(Commit(s', 2, Sum(slots)), h, 2, Sum(slots));
    Three(Commit(s', 2, Sum(slots)).cells, Cell(a, []), Cell(b, []), Cell(Sum(slots), slots));
  }

  /** B receiving `v`: B publishes it, then F hears it on slot 1. */
  lemma DiamondSecondSource(a: Value, b: Value, f: Cell, v: Value)
    requires |f.slots| == 2 && f.slots[0].Int? && f.slots[1].Int? && v.Int?
    ensures WellFormed(Diamond(a, b, f)) && Ranked(Diamond(a, b, f).subs, [2, 1, 0])
    ensures var slots := f.slots[1 := v];
            Update(Diamond(a, b, f), [2, 1, 0], 1, v) ==
            Step(Diamond(a, v, Cell(Sum(slots), slots)), [Publication(1, v), Publication(2, Sum(slots))])
  {
    DiamondRanked(a, b, f);
    var s, h := Diamond(a, b, f), [2, 1, 0];
    UpdateAccepts(s, h, 1, v, v);
    DiamondCommit(a, b, f, v);
    DiamondRanked(a, v, f);
    PublishToFormula(Diamond(a, v, f), h, 1, 2, 1, v);
    DiamondFormulaHears(a, v, f, 1, v);
  }

  /** A's topic runs F's slot 0 first: F publishes the sum of A's new value
      and B's old one. Then B's `update` runs, and F publishes again. */
  lemma DiamondPublish(a: Value, b: Value, f: Cell)
    requires |f.slots| == 2 && f.slots[0].Int? && f.slots[1].Int? && a.Int?
    ensures WellFormed(Diamond(a, b, f)) && Ranked(Diamond(a, b, f).subs, [2, 1, 0])
    ensures var mid := f.slots[0 := a];
            Publish(Diamond(a, b, f), [2, 1, 0], 0, a) ==
            Step(Diamond(a, a, Cell(Sum([a, a]), [a, a])),
                 [Publication(0, a), Publication(2, Sum(mid)), Publication(1, a), Publication(2, Sum([a, a]))])
  {
    DiamondRanked(a, b, f);
    var s, h := Diamond(a, b, f), [2, 1, 0];
    var mid := f.slots[0 := a];
    PublishRunsSubscribersInOrder(s, h, 0, a);
    var first := Handle(s, h, 0, 0, a);
    DiamondFirstHandler(a, b, f);
    assert first.store == Diamond(a, b, Cell(Sum(mid), mid));
    assert first.trace == [Publication(2, Sum(mid))];
    var second := Handle(first.store, h, 0, 1, a);
    DiamondSecondHandler(a, b, Cell(Sum(mid), mid));
    Two(mid[1 := a], a, a);
    assert second.store == Diamond(a, a, Cell(Sum([a, a]), [a, a]));
    assert second.trace == [Publication(1, a), Publication(2, Sum([a, a]))];
    Four(Publication(0, a), Publication(2, Sum(mid)), Publication(1, a), Publication(2, Sum([a, a])));
  }

  /** A list of two entries is the display of its entries. */
  lemma Two<T>(l: seq<T>, x: T, y: T)
    requires |l| == 2 && l[0] == x && l[1] == y
    ensures l == [x, y]
  {
  }

  /** A trace built from three pieces is the display of its four entries. */
  lemma Four<T>(w: T, x: T, y: T, z: T)
    ensures [w] + [x] + [y, z] == [w, x, y, z]
  {
  }

  lemma DiamondFirstHandler(a: Value, b: Value, f: Cell)
    requires |f.slots| == 2 && f.slots[0].Int? && f.slots[1].Int? && a.Int?
    ensures WellFormed(Diamond(a, b, f)) && Ranked(Diamond(a, b, f).subs, [2, 1, 0])
    ensures var mid := f.slots[0 := a];
            Handle(Diamond(a, b, f), [2, 1, 0], 0, 0, a) ==
            Step(Diamond(a, b, Cell(Sum(mid), mid)), [Publication(2, Sum(mid))])
  {
    DiamondRanked(a, b, f);
    DiamondFormulaHears(a, b, f, 0, a);
  }

  lemma DiamondSecondHandler(a: Value, b: Value, f: Cell)
    requires |f.slots| == 2 && f.slots[0].Int? && f.slots[1].Int? && a.Int?
    ensures WellFormed(Diamond(a, b, f)) && Ranked(Diamond(a, b, f).subs, [2, 1, 0])
    ensures var slots := f.slots[1 := a];
            Handle(Diamond(a, b, f), [2, 1, 0], 0, 1, a) ==
            Step(Diamond(a, a, Cell(Sum(slots), slots)), [Publication(1, a), Publication(2, Sum(slots))])
  {
    DiamondRanked(a, b, f);
    DiamondSecondSource(a, b, f, a);
  }

  /** `A.update(z)` on a settled diamond over `x` and `y`: A publishes; F
      hears it first and publishes `z + y`, over B's old value; only then
      does B take `z` and publish, and F publishes again, now `z + z`. Every
      node ends consistent, but F went through a state that pairs A's new
      value with B's old one. */
  lemma DiamondGlitch(x: int, y: int, z: int)
    ensures var u := Update(Diamond(Int(x), Int(y), Cell(Int(x + y), [Int(x), Int(y)])), [2, 1, 0], 0, Int(z));
            && u.store == Diamond(Int(z), Int(z), Cell(Int(z + z), [Int(z), Int(z)]))
            && u.trace == [Publication(0, Int(z)), Publication(2, Int(z + y)),
                           Publication(1, Int(z)), Publication(2, Int(z + z))]
  {
    var f := Cell(Int(x + y), [Int(x), Int(y)]);
    var s, h := Diamond(Int(x), Int(y), f), [2, 1, 0];
    DiamondRanked(Int(x), Int(y), f);
    UpdateAccepts(s, h, 0, Int(z), Int(z));
    DiamondCommit(Int(x), Int(y), f, Int(z));
    var u := Publish(Diamond(Int(z), Int(y), f), h, 0, Int(z));
    assert Update(s, h, 0, Int(z)) == u;
    DiamondPublish(Int(z), Int(y), f);
    Two(f.slots[0 := Int(z)], Int(z), Int(y));
    SumOfTwo(z, y);
    SumOfTwo(z, z);
  }

  // ---------------------------------------------------------------------
  // mapObject

  /** The decimal digits of `n`. */
  function Digits(n: nat): (r: string)
    ensures |r| > 0
    decreases n
  {
    var d := ["0", "1", "2", "3", "4", "5", "6", "7", "8", "9"][n % 10];
    if n < 10 then d else Digits(n / 10) + d
  }

  /** Template-literal conversion of a value to text. */
  function Show(v: Value): string {
    match v
    case Undef => "undefined"
    case Bool(b) => if b then "true" else "false"
    case Int(i) => if i < 0 then "-" + Digits(-i) else Digits(i)
    case Str(t) => t
    case Obj(_) => "[object Object]"
    case Nah => "[object Object]"
  }

  /** `(value, key) => `${key} ${value}``. */
  function Describe(v: Value, key: string): Value {
    Str(key + " " + Show(v))
  }

  lemma DescribeExamples()
    ensures Describe(Int(1), "foo") == Str("foo 1") && Describe(Int(2), "bar") == Str("bar 2")
    ensures Describe(Undef, "foo") == Str("foo undefined") && Describe(Undef, "bar") == Str("bar undefined")
  {
    assert Show(Int(1)) == "1" && Show(Int(2)) == "2";
  }

  /** `mapObject(describe, {foo: 1, bar: 2})`: es6/index.js gives
      "foo 1" and "bar 2" as test/test.js expects; index.js gives
      "foo undefined" and "bar undefined". */
  method MapObjectDescribes() returns (published: Value, asWritten: Value)
    ensures published == Obj(map["foo" := Str("foo 1"), "bar" := Str("bar 2")])
    ensures asWritten == Obj(map["foo" := Str("foo undefined"), "bar" := Str("bar undefined")])
  {
    var obj := Obj(map["foo" := Int(1), "bar" := Int(2)]);
    published := MapObject(Describe, obj);
    asWritten := MapObjectAsWritten(Describe, obj);
    DescribeExamples();
    assert published.fields.Keys == {"foo", "bar"};
    assert published.fields["foo"] == Str("foo 1") && published.fields["bar"] == Str("bar 2");
    assert asWritten.fields.Keys == {"foo", "bar"};
    assert asWritten.fields["foo"] == Str("foo undefined") && asWritten.fields["bar"] == Str("bar undefined");
  }
}

=== FILE: values.dfy ===
/** The value domain of the library: what a cell holds, what reducers and
    combining functions receive and return, and the shallow object merge
    (`merge`) the combinators are built on. */
module Values {

  /** A JavaScript value as far as the library observes it. `Obj` is a plain
      object seen through its own enumerable keys. `Nah` is the library's
      sentinel: a constructor of its own, so that no application value can be
      mistaken for it. */
  datatype Value =
    | Undef
    | Bool(b: bool)
    | Int(i: int)
    | Str(s: string)
    | Obj(fields: map<string, Value>)
    | Nah

  /** A reducer: `(state, input) -> next state`, or `Nah` to decline. */
  type Reducer = (Value, Value) -> Value

  /** The own keys `Object.assign` copies out of a value: the fields of an
      object, nothing for `undefined`, booleans, numbers and the sentinel
      (which is an empty object). */
  function Fields(v: Value): map<string, Value> {
    if v.Obj? then v.fields else map[]
  }

  /** Some argument of a merge has key `k`. */
  ghost predicate SomeHas(vs: seq<Value>, k: string) {
    exists i :: 0 <= i < |vs| && k in Fields(vs[i])
  }

  /** Argument `i` is the last argument of a merge that has key `k`. */
  ghost predicate LastHas(vs: seq<Value>, i: int, k: string) {
    && 0 <= i < |vs|
    && k in Fields(vs[i])
    && forall j :: i < j < |vs| ==> k !in Fields(vs[j])
  }

  /** `Object.assign({}, ...vs)` on the fields: every key of every argument,
      the value taken from the last argument that has the key. */
  function MergeFields(vs: seq<Value>): (r: map<string, Value>)
    ensures forall k :: k in r <==> SomeHas(vs, k)
    ensures forall i, k :: LastHas(vs, i, k) ==> k in r && r[k] == Fields(vs[i])[k]
    decreases |vs|
  {
    if |vs| == 0 then map[]
    else
      var front := vs[..|vs| - 1];
      var r := MergeFields(front) + Fields(vs[|vs| - 1]);
      assert forall i, k :: LastHas(vs, i, k) ==> k in r && r[k] == Fields(vs[i])[k] by {
        forall i, k | LastHas(vs, i, k) ensures k in r && r[k] == Fields(vs[i])[k] {
          if i < |vs| - 1 {
            assert LastHas(front, i, k);
          }
        }
      }
      r
  }

  /** `merge(...vs)`: a new object holding every key of every argument, each
      with the value of the last argument that has it; no argument is changed
      (values are immutable here). */
  function Merge(vs: seq<Value>): (r: Value)
    ensures r.Obj?
    ensures forall k :: k in r.fields <==> SomeHas(vs, k)
    ensures forall i, k :: LastHas(vs, i, k) ==> k in r.fields && r.fields[k] == Fields(vs[i])[k]
  {
    Obj(MergeFields(vs))
  }

  /** Whenever argument `j` has key `k`, some argument at or after `j` is the
      last one to have it. */
  lemma LastOwner(vs: seq<Value>, j: nat, k: string) returns (m: nat)
    requires j < |vs| && k in Fields(vs[j])
    ensures j <= m && LastHas(vs, m, k)
  {
    m := |vs| - 1;
    while k !in Fields(vs[m])
      invariant j <= m < |vs|
      invariant forall x :: m < x < |vs| ==> k !in Fields(vs[x])
      decreases m
    {
      m := m - 1;
    }
  }

  /** A key that a later argument owns is decided by the later arguments alone:
      replacing an earlier argument never changes it. This is what lets a sink
      keep a later atom's keys when an earlier atom is updated. */
  lemma MergeLaterWins(vs: seq<Value>, i: nat, j: nat, k: string, v: Value)
    requires i < j < |vs|
    requires k in Fields(vs[j])
    ensures k in MergeFields(vs[i := v]) && k in MergeFields(vs)
    ensures MergeFields(vs[i := v])[k] == MergeFields(vs)[k]
  {
    var m := LastOwner(vs, j, k);
    var ws := vs[i := v];
    assert LastHas(ws, m, k);
  }

  /** `merge(a, b)`: the fields of `a` overridden by those of `b`. */
  lemma MergePair(a: Value, b: Value)
    ensures Merge([a, b]) == Obj(Fields(a) + Fields(b))
  {
    var vs := [a, b];
    assert vs[..1] == [a];
    assert [a][..0] == [];
    assert MergeFields([a]) == MergeFields([]) + Fields(a);
  }

  /** `merge(state, {[key]: v})`: a copy of `state` that differs at `key` only. */
  lemma MergePatch(state: Value, key: string, v: Value)
    ensures Merge([state, Obj(map[key := v])]) == Obj(Fields(state)[key := v])
  {
    MergePair(state, Obj(map[key := v]));
    assert Fields(state) + map[key := v] == Fields(state)[key := v];
  }
}

=== FILE: wiring.dfy ===
/** How nodes are defined and wired: `defineAtom`, `defineValueAtom`,
    `atomify`, `defineFormula`, `sink`, `combine` (as published and in the
    variant whose handlers share one key), `link`, and a plain outside
    `subscribe`. Defining a node publishes nothing; it appends the node and
    registers its handlers, in the order the source registers them. */
module Wiring {
  import opened Values
  import opened Engine

  /** A store together with the node just defined in it. */
  datatype Built = Built(store: Store, id: NodeId)

  /** What `link` returns: the last atom of the chain, or the `TypeError`
      that `reduce` raises on an empty chain. */
  datatype Linked = Linked(store: Store, last: NodeId) | EmptyChain

  /** The store with no nodes. */
  function Empty(): (r: Store)
    ensures WellFormed(r) && |r.cells| == 0
  {
    Store([], [], [])
  }

  // ---------------------------------------------------------------------
  // The subscription registry

  /** The handlers that registering `handlers[i]` on `sources[i]`, for every
      `i` in order, puts on topic `t`: the reference definition of a batch of
      `subscribe` calls as seen from one topic. */
  function Registered(t: NodeId, sources: seq<NodeId>, handlers: seq<Subscriber>): (r: seq<Subscriber>)
    requires |sources| == |handlers|
    ensures forall x :: x in r ==> RegisteredOn(t, sources, handlers, x)
    ensures forall i :: 0 <= i < |sources| && sources[i] == t ==> handlers[i] in r
    decreases |sources|
  {
    if |sources| == 0 then []
    else (if sources[0] == t then [handlers[0]] else []) + Registered(t, sources[1..], handlers[1..])
  }

  /** Some `i` registers `x` on topic `t`. */
  ghost predicate RegisteredOn(t: NodeId, sources: seq<NodeId>, handlers: seq<Subscriber>, x: Subscriber)
    requires |sources| == |handlers|
  {
    exists i :: 0 <= i < |sources| && sources[i] == t && handlers[i] == x
  }

  /** A topic none of the sources names gets nothing. */
  lemma {:induction false} RegisteredNone(t: NodeId, sources: seq<NodeId>, handlers: seq<Subscriber>)
    requires |sources| == |handlers|
    requires forall i :: 0 <= i < |sources| ==> sources[i] != t
    ensures Registered(t, sources, handlers) == []
    decreases |sources|
  {
    if |sources| > 0 {
      RegisteredNone(t, sources[1..], handlers[1..]);
    }
  }

  /** `subscribe(sources[i], handlers[i])` for every `i`, one after the
      other: each topic's list grows at its end by exactly the handlers
      registered on it, in registration order. */
  function Attach(subs: seq<seq<Subscriber>>, sources: seq<NodeId>, handlers: seq<Subscriber>): (r: seq<seq<Subscriber>>)
    requires |sources| == |handlers|
    requires forall i :: 0 <= i < |sources| ==> sources[i] < |subs|
    ensures |r| == |subs|
    ensures forall t :: 0 <= t < |subs| ==> r[t] == subs[t] + Registered(t, sources, handlers)
    decreases |sources|
  {
    if |sources| == 0 then subs
    else
      var t0 := sources[0];
      var subs' := subs[t0 := subs[t0] + [handlers[0]]];
      assert forall i :: 0 <= i < |sources| - 1 ==> sources[1..][i] == sources[i + 1];
      var r := Attach(subs', sources[1..], handlers[1..]);
      assert forall t :: 0 <= t < |subs| ==> r[t] == subs[t] + Registered(t, sources, handlers) by {
        forall t | 0 <= t < |subs|
          ensures r[t] == subs[t] + Registered(t, sources, handlers)
        {
          AttachStep(subs, sources, handlers, t, r[t]);
        }
      }
      r
  }

  /** One `subscribe` followed by the rest of the batch, seen from topic `t`. */
  lemma AttachStep(subs: seq<seq<Subscriber>>, sources: seq<NodeId>, handlers: seq<Subscriber>, t: NodeId, rt: seq<Subscriber>)
    requires |sources| == |handlers| > 0 && t < |subs| && sources[0] < |subs|
    requires rt == subs[sources[0] := subs[sources[0]] + [handlers[0]]][t] + Registered(t, sources[1..], handlers[1..])
    ensures rt == subs[t] + Registered(t, sources, handlers)
  {
    var tail := Registered(t, sources[1..], handlers[1..]);
    if t == sources[0] {
      assert Registered(t, sources, handlers) == [handlers[0]] + tail;
      assert (subs[t] + [handlers[0]]) + tail == subs[t] + ([handlers[0]] + tail);
    } else {
      assert Registered(t, sources, handlers) == [] + tail;
    }
  }

  /** Handlers that fit the kinds keep the registry well-formed. */
  lemma AttachWired(kinds: seq<Kind>, subs: seq<seq<Subscriber>>, sources: seq<NodeId>, handlers: seq<Subscriber>)
    requires Wired(kinds, subs)
    requires |sources| == |handlers|
    requires forall i :: 0 <= i < |sources| ==> sources[i] < |subs| && Fitting(kinds, handlers[i])
    ensures Wired(kinds, Attach(subs, sources, handlers))
  {
    var r := Attach(subs, sources, handlers);
    forall t, j | 0 <= t < |r| && 0 <= j < |r[t]|
      ensures Fitting(kinds, r[t][j])
    {
      if j >= |subs[t]| {
        var reg := Registered(t, sources, handlers);
        assert r[t][j] == reg[j - |subs[t]|];
        assert r[t][j] in reg;
      }
    }
  }

  /** Handlers that each lead strictly downhill keep a height valid. */
  lemma AttachRanked(subs: seq<seq<Subscriber>>, sources: seq<NodeId>, handlers: seq<Subscriber>, h: seq<nat>)
    requires Ranked(subs, h)
    requires |sources| == |handlers|
    requires forall i :: 0 <= i < |sources| ==> sources[i] < |subs|
    requires forall i :: 0 <= i < |sources| && !handlers[i].Observer? ==>
               Target(handlers[i]) < |h| && h[Target(handlers[i])] < h[sources[i]]
    ensures Ranked(Attach(subs, sources, handlers), h)
  {
    var r: seq<seq<Subscriber>> := Attach(subs, sources, handlers);
    forall t: int, j: int | 0 <= t < |r| && 0 <= j < |r[t]| && !r[t][j].Observer?
      ensures Target(r[t][j]) < |h| && h[Target(r[t][j])] < h[t]
    {
      if j >= |subs[t]| {
        var reg := Registered(t, sources, handlers);
        assert r[t][j] == reg[j - |subs[t]|];
        assert r[t][j] in reg;
      }
    }
  }

  /** Adding a node with no subscribers extends any height, at any level. */
  lemma ExtendRanked(subs: seq<seq<Subscriber>>, h: seq<nat>, top: nat)
    requires Ranked(subs, h)
    ensures Ranked(subs + [[]], h + [top])
  {
    var subs': seq<seq<Subscriber>>, h': seq<nat> := subs + [[]], h + [top];
    forall t: int, j: int | 0 <= t < |subs'| && 0 <= j < |subs'[t]| && !subs'[t][j].Observer?
      ensures Target(subs'[t][j]) < |h'| && h'[Target(subs'[t][j])] < h'[t]
    {
      assert t < |subs| && subs'[t][j] == subs[t][j];
    }
  }

  /** Every node one level higher. */
  function Raise(h: seq<nat>): (r: seq<nat>)
    ensures |r| == |h| && forall n :: 0 <= n < |h| ==> r[n] == h[n] + 1
  {
    seq(|h|, n requires 0 <= n < |h| => h[n] + 1)
  }

  lemma RaiseRanked(subs: seq<seq<Subscriber>>, h: seq<nat>)
    requires Ranked(subs, h)
    ensures Ranked(subs, Raise(h))
  {
  }

  // ---------------------------------------------------------------------
  // Defining nodes

  /** A new node of kind `k` with cell `c`, nothing subscribed to it. */
  function AddNode(s: Store, k: Kind, c: Cell): (r: Built)
    requires WellFormed(s)
    requires k.Deriving? ==> |c.slots| == k.arity
    ensures WellFormed(r.store)
    ensures r.id == |s.cells| && |r.store.cells| == |s.cells| + 1
    ensures r.store.kinds == s.kinds + [k]
    ensures r.store.cells == s.cells + [c]
    ensures r.store.subs == s.subs + [[]]
  {
    var s' := Store(s.kinds + [k], s.cells + [c], s.subs + [[]]);
    assert forall t, j :: 0 <= t < |s.subs| && 0 <= j < |s.subs[t]| ==>
      s'.subs[t][j] == s.subs[t][j] && Fitting(s'.kinds, s'.subs[t][j]);
    Built(s', |s.cells|)
  }

  /** `defineAtom(reducer, init)`: a reducer-gated cell holding `init`. */
  function DefineAtom(s: Store, reducer: Reducer, init: Value): (r: Built)
    requires WellFormed(s)
    ensures WellFormed(r.store)
    ensures r.id == |s.cells| && |r.store.cells| == |s.cells| + 1 && Read(r.store, r.id) == init
    ensures r.store.kinds[r.id].Reducing?
    ensures forall st, v :: r.store.kinds[r.id].reducer(st, v) == reducer(st, v)
    ensures r.store.kinds[..r.id] == s.kinds && r.store.cells[..r.id] == s.cells
    ensures r.store.subs == s.subs + [[]]
  {
    AddNode(s, Reducing(reducer), Cell(init, []))
  }

  /** `defineValueAtom(init)`: a cell that takes whatever it is given. */
  function DefineValueAtom(s: Store, init: Value): (r: Built)
    requires WellFormed(s)
    ensures WellFormed(r.store)
    ensures r.id == |s.cells| && |r.store.cells| == |s.cells| + 1 && Read(r.store, r.id) == init
    ensures r.store.kinds[r.id].Replacing?
    ensures r.store.kinds[..r.id] == s.kinds && r.store.cells[..r.id] == s.cells
    ensures r.store.subs == s.subs + [[]]
  {
    AddNode(s, Replacing, Cell(init, []))
  }

  /** `atomify(fn, init)`: an atom whose reducer ignores the previous state
      and returns `fn(value)`. The source never passes `init` on, so the atom
      starts out `undefined` whatever `init` is. */
  function Atomify(s: Store, fn: Value -> Value, init: Value): (r: Built)
    requires WellFormed(s)
    ensures WellFormed(r.store)
    ensures r.id == |s.cells| && |r.store.cells| == |s.cells| + 1 && Read(r.store, r.id) == Undef
    ensures r.store.kinds[r.id].Reducing?
    ensures forall st, v :: r.store.kinds[r.id].reducer(st, v) == fn(v)
    ensures r.store.kinds[..r.id] == s.kinds && r.store.cells[..r.id] == s.cells
    ensures r.store.subs == s.subs + [[]]
  {
    DefineAtom(s, (unused, value) => fn(value), Undef)
  }

  /** The handlers of a formula `f` over `n` sources, one per source index. */
  function FormulaSlots(f: NodeId, n: nat): (r: seq<Subscriber>)
    ensures |r| == n && forall i :: 0 <= i < n ==> r[i] == FormulaSlot(f, i)
  {
    seq(n, i requires 0 <= i < n => FormulaSlot(f, i))
  }

  /** `defineFormula(formula, ...sources)`: one handler per source index,
      registered on that source in order; the slots start as the sources'
      current states; the initial state is `formula` over all slots, taken
      as it comes, the sentinel included. */
  function DefineFormula(s: Store, formula: seq<Value> -> Value, sources: seq<NodeId>): (r: Built)
    requires WellFormed(s)
    requires forall i :: 0 <= i < |sources| ==> sources[i] < |s.cells|
    ensures WellFormed(r.store)
    ensures r.id == |s.cells| && |r.store.cells| == |s.cells| + 1
    ensures r.store.kinds == s.kinds + [Deriving(formula, |sources|)]
    ensures r.store.cells[..r.id] == s.cells
    ensures |r.store.cells[r.id].slots| == |sources|
    ensures forall i :: 0 <= i < |sources| ==> r.store.cells[r.id].slots[i] == Read(s, sources[i])
    ensures Read(r.store, r.id) == formula(r.store.cells[r.id].slots)
    ensures r.store.subs[r.id] == []
    ensures forall t :: 0 <= t < |s.cells| ==>
              r.store.subs[t] == s.subs[t] + Registered(t, sources, FormulaSlots(r.id, |sources|))
  {
    var id := |s.cells|;
    var slots := seq(|sources|, i requires 0 <= i < |sources| => Read(s, sources[i]));
    var b := AddNode(s, Deriving(formula, |sources|), Cell(formula(slots), slots));
    var handlers := FormulaSlots(id, |sources|);
    AttachWired(b.store.kinds, b.store.subs, sources, handlers);
    var subs := Attach(b.store.subs, sources, handlers);
    RegisteredNone(id, sources, handlers);
    Built(b.store.(subs := subs), id)
  }

  /** The formula a sink recomputes: `merge` over the slots. */
  ghost predicate IsSink(s: Store, f: NodeId)
    requires f < |s.kinds|
  {
    s.kinds[f].Deriving? && forall vs :: s.kinds[f].formula(vs) == Merge(vs)
  }

  /** `sink(...sources)`: `defineFormula(merge, ...sources)`. Its state is
      the merge of the sources' states, a later source winning every key it
      has. */
  function Sink(s: Store, sources: seq<NodeId>): (r: Built)
    requires WellFormed(s)
    requires forall i :: 0 <= i < |sources| ==> sources[i] < |s.cells|
    ensures WellFormed(r.store)
    ensures r.id == |s.cells| && |r.store.cells| == |s.cells| + 1 && IsSink(r.store, r.id)
    ensures r.store.cells[..r.id] == s.cells
    ensures |r.store.cells[r.id].slots| == |sources|
    ensures forall i :: 0 <= i < |sources| ==> r.store.cells[r.id].slots[i] == Read(s, sources[i])
    ensures Read(r.store, r.id) == Merge(r.store.cells[r.id].slots)
    ensures r.store.kinds == s.kinds + [Deriving(Merge, |sources|)]
    ensures r.store.subs[r.id] == []
    ensures forall t :: 0 <= t < |s.cells| ==>
              r.store.subs[t] == s.subs[t] + Registered(t, sources, FormulaSlots(r.id, |sources|))
  {
    DefineFormula(s, Merge, sources)
  }

  /** The handlers `combine` means to register: source `i` patches its own key. */
  function KeyHandlers(c: NodeId, entries: seq<(string, NodeId)>): (r: seq<Subscriber>)
    ensures |r| == |entries| && forall i :: 0 <= i < |entries| ==> r[i] == CombineKey(c, entries[i].0)
  {
    seq(|entries|, i requires 0 <= i < |entries| => CombineKey(c, entries[i].0))
  }

  /** The handlers `combine` in index.js actually registers: every closure
      reads the loop's shared `key` variable when it runs, by which time it
      holds the last key enumerated. */
  function SharedKeyHandlers(c: NodeId, entries: seq<(string, NodeId)>): (r: seq<Subscriber>)
    ensures |r| == |entries|
    ensures forall i :: 0 <= i < |entries| ==> r[i] == CombineKey(c, entries[|entries| - 1].0)
  {
    seq(|entries|, i requires 0 <= i < |entries| => CombineKey(c, entries[|entries| - 1].0))
  }

  function Sources(entries: seq<(string, NodeId)>): (r: seq<NodeId>)
    ensures |r| == |entries| && forall i :: 0 <= i < |entries| ==> r[i] == entries[i].1
  {
    seq(|entries|, i requires 0 <= i < |entries| => entries[i].1)
  }

  /** The keys of an object are distinct. */
  predicate DistinctKeys(entries: seq<(string, NodeId)>) {
    forall i, j :: 0 <= i < j < |entries| ==> entries[i].0 != entries[j].0
  }

  /** Some entry carries key `k`. */
  ghost predicate Keyed(entries: seq<(string, NodeId)>, k: string) {
    exists i :: 0 <= i < |entries| && entries[i].0 == k
  }

  lemma KeyedCons(entries: seq<(string, NodeId)>, k: string)
    requires |entries| > 0
    ensures Keyed(entries, k) <==> entries[0].0 == k || Keyed(entries[1..], k)
  {
    if Keyed(entries, k) && entries[0].0 != k {
      var i :| 0 <= i < |entries| && entries[i].0 == k;
      assert entries[1..][i - 1].0 == k;
    }
    if Keyed(entries[1..], k) {
      var i :| 0 <= i < |entries| - 1 && entries[1..][i].0 == k;
      assert entries[i + 1].0 == k;
    }
  }

  /** `state[key] = atom()` for every entry in enumeration order. */
  function Snapshot(s: Store, entries: seq<(string, NodeId)>): (r: map<string, Value>)
    requires forall i :: 0 <= i < |entries| ==> entries[i].1 < |s.cells|
    requires DistinctKeys(entries)
    ensures forall k :: k in r <==> Keyed(entries, k)
    ensures forall i :: 0 <= i < |entries| ==> entries[i].0 in r && r[entries[i].0] == Read(s, entries[i].1)
    decreases |entries|
  {
    if |entries| == 0 then map[]
    else
      var rest := Snapshot(s, entries[1..]);
      assert forall k :: Keyed(entries, k) <==> entries[0].0 == k || Keyed(entries[1..], k) by {
        forall k { KeyedCons(entries, k); }
      }
      assert forall i :: 1 <= i < |entries| ==> entries[1..][i - 1] == entries[i];
      rest[entries[0].0 := Read(s, entries[0].1)]
  }

  /** A combinator starting at `init`, with `handlers[i]` registered on
      `sources[i]`. */
  function AddCombinator(s: Store, sources: seq<NodeId>, handlers: seq<Subscriber>, init: Value): (r: Built)
    requires WellFormed(s)
    requires forall i :: 0 <= i < |sources| ==> sources[i] < |s.cells|
    requires |handlers| == |sources|
    requires forall i :: 0 <= i < |handlers| ==> handlers[i].CombineKey? && handlers[i].combinator == |s.cells|
    ensures WellFormed(r.store)
    ensures r.id == |s.cells| && |r.store.cells| == |s.cells| + 1
    ensures r.store.kinds == s.kinds + [Combining]
    ensures r.store.cells[..r.id] == s.cells
    ensures r.store.cells[r.id] == Cell(init, [])
    ensures r.store.subs[r.id] == []
    ensures forall t :: 0 <= t < |s.cells| ==>
              r.store.subs[t] == s.subs[t] + Registered(t, sources, handlers)
  {
    var id := |s.cells|;
    var b := AddNode(s, Combining, Cell(init, []));
    AttachWired(b.store.kinds, b.store.subs, sources, handlers);
    var subs := Attach(b.store.subs, sources, handlers);
    RegisteredNone(id, sources, handlers);
    Built(b.store.(subs := subs), id)
  }

  /** `combine(atomMap)` of es6/index.js, `entries` being the map's entries
      in enumeration order: the initial mapping holds each atom's state under
      its key, and source `i` gets a handler patching key `i`. */
  function Combine(s: Store, entries: seq<(string, NodeId)>): (r: Built)
    requires WellFormed(s)
    requires forall i :: 0 <= i < |entries| ==> entries[i].1 < |s.cells|
    requires DistinctKeys(entries)
    ensures WellFormed(r.store)
    ensures r.id == |s.cells| && r.store.kinds == s.kinds + [Combining]
    ensures r.store.cells[..r.id] == s.cells
    ensures Read(r.store, r.id).Obj?
    ensures forall k :: k in Read(r.store, r.id).fields <==> Keyed(entries, k)
    ensures forall i :: 0 <= i < |entries| ==>
              entries[i].0 in Read(r.store, r.id).fields && Read(r.store, r.id).fields[entries[i].0] == Read(s, entries[i].1)
    ensures forall t :: 0 <= t < |s.cells| ==>
              r.store.subs[t] == s.subs[t] + Registered(t, Sources(entries), KeyHandlers(r.id, entries))
    ensures r.store.subs[r.id] == []
  {
    AddCombinator(s, Sources(entries), KeyHandlers(|s.cells|, entries), Obj(Snapshot(s, entries)))
  }

  /** `combine(atomMap)` of index.js: the same initial mapping, but every
      handler patches the last key enumerated. */
  function CombineShared(s: Store, entries: seq<(string, NodeId)>): (r: Built)
    requires WellFormed(s)
    requires forall i :: 0 <= i < |entries| ==> entries[i].1 < |s.cells|
    requires DistinctKeys(entries)
    ensures WellFormed(r.store)
    ensures r.id == |s.cells| && r.store.kinds == s.kinds + [Combining]
    ensures forall n :: 0 <= n < |s.cells| ==> r.store.cells[n] == s.cells[n]
    ensures Read(r.store, r.id).Obj?
    ensures forall k :: k in Read(r.store, r.id).fields <==> Keyed(entries, k)
    ensures forall i :: 0 <= i < |entries| ==>
              entries[i].0 in Read(r.store, r.id).fields && Read(r.store, r.id).fields[entries[i].0] == Read(s, entries[i].1)
    ensures forall t :: 0 <= t < |s.cells| ==>
              r.store.subs[t] == s.subs[t] + Registered(t, Sources(entries), SharedKeyHandlers(r.id, entries))
    ensures r.store.subs[r.id] == []
  {
    var handlers := SharedKeyHandlers(|s.cells|, entries);
    AddCombinator(s, Sources(entries), handlers, Obj(Snapshot(s, entries)))
  }

  /** The handlers `link` registers: atom `i` forwards to atom `i + 1`'s
      `update`. */
  function LinkHandlers(atoms: seq<NodeId>): (r: seq<Subscriber>)
    requires |atoms| > 0
    ensures |r| == |atoms| - 1 && forall i :: 0 <= i < |atoms| - 1 ==> r[i] == LinkUpdate(atoms[i + 1])
  {
    seq(|atoms| - 1, i requires 0 <= i < |atoms| - 1 => LinkUpdate(atoms[i + 1]))
  }

  /** `link(...atoms)`: `atoms.reduce` with no initial value. An empty chain
      is the `TypeError` of `reduce`; otherwise each atom's topic gets the
      next atom's `update`, the result is the last atom, and cells do not
      change. A single atom is returned as it is, with nothing registered. */
  function Link(s: Store, atoms: seq<NodeId>): (r: Linked)
    requires WellFormed(s)
    requires forall i :: 0 <= i < |atoms| ==> atoms[i] < |s.cells|
    requires forall i :: 1 <= i < |atoms| ==> s.kinds[atoms[i]].Updatable()
    ensures r.EmptyChain? <==> |atoms| == 0
    ensures r.Linked? ==>
              && WellFormed(r.store)
              && r.last == atoms[|atoms| - 1]
              && r.store.kinds == s.kinds && r.store.cells == s.cells
              && |r.store.subs| == |s.subs|
              && forall t :: 0 <= t < |s.subs| ==>
                   r.store.subs[t] == s.subs[t] + Registered(t, atoms[..|atoms| - 1], LinkHandlers(atoms))
    ensures |atoms| == 1 ==> r == Linked(s, atoms[0])
  {
    if |atoms| == 0 then EmptyChain
    else
      var sources := atoms[..|atoms| - 1];
      var handlers := LinkHandlers(atoms);
      AttachWired(s.kinds, s.subs, sources, handlers);
      var subs := Attach(s.subs, sources, handlers);
      assert |atoms| == 1 ==> subs == s.subs;
      Linked(s.(subs := subs), atoms[|atoms| - 1])
  }

  /** `subscribe(t, listener)` from outside the library. */
  function Observe(s: Store, t: NodeId, tag: nat): (r: Store)
    requires WellFormed(s) && t < |s.cells|
    ensures WellFormed(r)
    ensures r.kinds == s.kinds && r.cells == s.cells
    ensures |r.subs| == |s.subs| && r.subs[t] == s.subs[t] + [Observer(tag)]
    ensures forall u :: 0 <= u < |s.subs| && u != t ==> r.subs[u] == s.subs[u]
  {
    AttachWired(s.kinds, s.subs, [t], [Observer(tag)]);
    s.(subs := Attach(s.subs, [t], [Observer(tag)]))
  }

  // ---------------------------------------------------------------------
  // Heights survive wiring

  /** A formula sits below every source once everything else is raised. */
  lemma FormulaRanked(s: Store, formula: seq<Value> -> Value, sources: seq<NodeId>, h: seq<nat>)
    requires WellFormed(s) && Ranked(s.subs, h)
    requires forall i :: 0 <= i < |sources| ==> sources[i] < |s.cells|
    ensures Ranked(DefineFormula(s, formula, sources).store.subs, Raise(h) + [0])
  {
    var id := |s.cells|;
    RaiseRanked(s.subs, h);
    ExtendRanked(s.subs, Raise(h), 0);
    var h' := Raise(h) + [0];
    var handlers := FormulaSlots(id, |sources|);
    AttachRanked(s.subs + [[]], sources, handlers, h');
    var r := DefineFormula(s, formula, sources);
    var a := Attach(s.subs + [[]], sources, handlers);
    RegisteredNone(id, sources, handlers);
    assert r.store.subs == a;
  }

  /** A combinator likewise sits below every source. */
  lemma CombinatorRanked(s: Store, sources: seq<NodeId>, handlers: seq<Subscriber>, init: Value, h: seq<nat>)
    requires WellFormed(s) && Ranked(s.subs, h)
    requires forall i :: 0 <= i < |sources| ==> sources[i] < |s.cells|
    requires |handlers| == |sources|
    requires forall i :: 0 <= i < |handlers| ==> handlers[i].CombineKey? && handlers[i].combinator == |s.cells|
    ensures Ranked(AddCombinator(s, sources, handlers, init).store.subs, Raise(h) + [0])
  {
    var id := |s.cells|;
    RaiseRanked(s.subs, h);
    ExtendRanked(s.subs, Raise(h), 0);
    var h' := Raise(h) + [0];
    AttachRanked(s.subs + [[]], sources, handlers, h');
    var r := AddCombinator(s, sources, handlers, init);
    var a := Attach(s.subs + [[]], sources, handlers);
    RegisteredNone(id, sources, handlers);
    assert r.store.subs == a;
  }

  /** A chain whose heights strictly fall along it keeps the height. */
  lemma LinkRanked(s: Store, atoms: seq<NodeId>, h: seq<nat>)
    requires WellFormed(s) && Ranked(s.subs, h)
    requires forall i :: 0 <= i < |atoms| ==> atoms[i] < |s.cells|
    requires forall i :: 1 <= i < |atoms| ==> s.kinds[atoms[i]].Updatable()
    requires forall i :: 0 <= i < |atoms| - 1 ==> h[atoms[i + 1]] < h[atoms[i]]
    ensures Link(s, atoms).Linked? ==> Ranked(Link(s, atoms).store.subs, h)
  {
    if |atoms| > 0 {
      var sources := atoms[..|atoms| - 1];
      var handlers := LinkHandlers(atoms);
      AttachRanked(s.subs, sources, handlers, h);
      var a := Attach(s.subs, sources, handlers);
      assert Link(s, atoms).store.subs == a;
    }
  }
}
